=== FILE: README.md ===
# River level forecasting core, modelled in Dafny

This project models the forecasting core of the river-level forecaster:

- **the dataset pipeline** (`forecasting/dataset.py`): engineered features over a ten-day rolling window, min-max scalers fitted on the first historical covariate variant only, and positional train/validation/test splits;
- **the ensemble forecaster** (`forecasting/forecaster.py`): one model per covariate variant, built afresh or loaded from checkpoints, fitted and queried pairwise, with member outputs joined into a `min`/`mean`/`max` band;
- **the prediction set** (`forecasting/prediction_set.py`): live data scaled with the training scalers, and the fixed-width window a model reads.

Files and modules:

| file | module | models |
|---|---|---|
| `common.dfy` | `Common` | hours, `Option`/`Result`, the error conditions raised, folds over reals, `Collect` (a loop that appends one value per step and stops at the first error) |
| `frames.dfy` | `Frames` | time-indexed tables (pandas frames / darts series), column-major |
| `calendar.dfy` | `Calendar` | `day_of_year` of an hourly timestamp |
| `features.dfy` | `Features` | `add_engineered_features` |
| `scaling.dfy` | `Scaling` | min-max `fit`, `transform`, `inverse_transform` |
| `dataset.dfy` | `DatasetPipeline` | `_pre_process`, `_partition`, `num_X_sets`, the `Dataset` object and its construction |
| `prediction_set.dfy` | `Prediction` | `_pre_process`, `x_in_for_window`, `update`, the `PredictionSet` object |
| `forecaster.dfy` | `Ensemble` | model selection, build and load, `fit` pairing, forecast dispatch, `_join_preds`, `_inverse_scale_all`, `forecast_for`, `forecast_for_range` |

Timestamps are whole hours since 1970-01-01. Values are Dafny `real`s. The neural models are opaque: `fit` is modelled as the list of calls it issues, and predictions are function parameters.

## Model

| member | source | states |
|---|---|---|
| `Calendar.EpochIsDayOne` | forecasting/dataset.py:77 | 1970-01-01 is day 1 of its year |
| `Calendar.LeapYearEndIsDay366` | forecasting/dataset.py:77 | 2000-12-31 is day 366 (leap year) |
| `Calendar.DayOfYear` | forecasting/dataset.py:77 | the day of the year of an hour lies in 1 ..= 366, and day 366 occurs only in a leap year |
| `Frames.SplitRejoin` | forecasting/dataset.py:64-65 | cutting a frame at any row and joining the pieces gives the frame back |
| `Frames.SetColumn` | forecasting/dataset.py:77-84 | `df[name] = values` keeps the index; it overwrites an existing column and appends a missing one at the end |
| `Frames.ColAfterSet` | forecasting/dataset.py:77-84 | after `df[name] = values`, that column reads `values` and every other column is unchanged |
| `Frames.PositionOf` | forecasting/prediction_set.py:54-57 | the position found holds the timestamp, and there is no position exactly when the timestamp is not in the index |
| `Frames.PositionUnique` | forecasting/prediction_set.py:54-62 | in an increasing index a timestamp has exactly one position |
| `Features.AddEngineeredFeatures` | forecasting/dataset.py:76-89 | missing `snow_1h`, `rain_1h` or `temp` raises KeyError, checked in that order; otherwise the rows kept are the input rows after the 239 warm-up rows, so n >= 240 rows give n - 239 rows and fewer give none |
| `Features.TrailingSums` | forecasting/dataset.py:79-81 | `rolling(240).sum()` has a value on n - 239 rows of an n-row series (n >= 240) and on none of a shorter one |
| `Features.TrailingMeans` | forecasting/dataset.py:84 | `rolling(240).mean()` has a value on the same rows as the sum, each the window sum divided by 240 |
| `Features.UntouchedColumn` | forecasting/dataset.py:77-87 | a column that none of the assignments `df[name] = values` names is, after them and the warm-up drop, the input column without its warm-up rows |
| `Features.AssignedColumn` | forecasting/dataset.py:77-87 | when the assigned names are distinct, each assigned column holds exactly that feature's values on the kept rows |
| `Features.EngineeredColumns` | forecasting/dataset.py:77-84 | `snow_10d`/`rain_10d` are the 240-row trailing sums, `temp_10d` the trailing mean, and `day_of_year` comes from each row's own timestamp |
| `Features.KeptColumns` | forecasting/dataset.py:76-89 | every column other than the four engineered ones is the input column without its warm-up rows (absent if it was absent) |
| `Features.TrailingSumSlides` | forecasting/dataset.py:79-81 | moving the window one row on adds the entering row and subtracts the leaving row |
| `Features.TrailingMeanWithinWindow` | forecasting/dataset.py:84 | the ten-day mean temperature lies between the window's minimum and maximum |
| `Features.WindowCoversTenDays` | forecasting/dataset.py:79-84 | on a gap-free hourly index, each kept row's window is exactly the 240 hours ending at that row |
| `Features.FiveHundredRowsKeep261` | forecasting/dataset.py:79-87 | 500 input rows keep 261 rows |
| `Scaling.ScaleRoundTrip` | forecasting/forecaster.py:144 | inverse scaling undoes scaling and vice versa, for every value; a constant column divides by 1 |
| `Scaling.Fit` | forecasting/dataset.py:44-45 | one column scaler per column, whose minimum and maximum are both values of that column |
| `Scaling.ScaleWithinFittedRange` | forecasting/dataset.py:44-48 | a value between the fitted minimum and maximum scales into [0, 1] |
| `Scaling.FitBounds` | forecasting/dataset.py:44-45 | every fitted column has minimum <= maximum, and the fitting data lies between them |
| `Scaling.Transform` | forecasting/dataset.py:48 | keeps index, names and width; each column is scaled by its own column scaler |
| `Scaling.InverseTransform` | forecasting/forecaster.py:215 | keeps index, names and width; each column is unscaled by its own column scaler |
| `Scaling.TransformRoundTrip` | forecasting/forecaster.py:213-216 | inverse-transforming a transformed frame gives the frame back |
| `Scaling.FittedDataInUnitRange` | forecasting/dataset.py:44-48 | the data a scaler was fitted on maps into [0, 1] in every column |
| `DatasetPipeline.Prepare` | forecasting/dataset.py:39-42 | the series is the engineered frame, with at least one row, and the target is the frame's own; a frame whose rows all fall in the warm-up fails |
| `DatasetPipeline.PrepareEachAt` | forecasting/dataset.py:38-42 | the prepared frames, taken together, are each frame's own preparation, in input order |
| `DatasetPipeline.ScaleWith` | forecasting/dataset.py:48 | an unfitted scaler raises; a scaler fitted on a different width raises; otherwise the result is the transform, and these are the only cases |
| `DatasetPipeline.OnePerFrame` | forecasting/dataset.py:36-49 | exactly one scaled covariate series per input frame, in input order, each the result of that frame's own iteration |
| `DatasetPipeline.ProcessedFrame` | forecasting/dataset.py:39-48 | a processed frame is its engineered covariates transformed with the shared, fitted scaler |
| `DatasetPipeline.FittedOnFirstFrameOnly` | forecasting/dataset.py:43-46 | both scalers are fitted on the first frame only, and later frames never change them |
| `DatasetPipeline.ScalersAfter` | forecasting/dataset.py:43-46 | with `fit_scalers=False` the scalers are left as they were; scalers that change are both fitted, the target scaler on one column |
| `DatasetPipeline.Outcome` | forecasting/dataset.py:36-57 | no frame raises (the target is still `None`); on success one covariate series per frame and the last frame's target transformed once with the target scaler, fitted on one column |
| `DatasetPipeline.FittedAfterSuccess` | forecasting/dataset.py:43-55 | a successful fitting run had a first frame and leaves both scalers fitted, the target scaler on one column |
| `DatasetPipeline.FirstVariantInUnitRange` | forecasting/dataset.py:43-48 | the first variant's scaled series lies in [0, 1] in every column |
| `DatasetPipeline.SharedTargetInUnitRange` | forecasting/dataset.py:50-55 | the returned target is the last frame's target transformed once with the scaler fitted on the first frame's target; when those targets are equal it lies in [0, 1] |
| `DatasetPipeline.UnfittedScalersAlwaysFail` | forecasting/dataset.py:15-17 | with both scalers unfitted, `_pre_process` raises on every input |
| `DatasetPipeline.SplitPoint` | forecasting/dataset.py:64-65 | `split_after(p)` keeps rows 0 ..= floor((n - 1) p): between 1 and n rows for a non-empty series |
| `DatasetPipeline.SplitAfter` | forecasting/dataset.py:64 | the two parts have the split lengths and the column count of the series, and joined back they give the series (a part may be empty; `DatasetPipeline.PartitionOf` raises then) |
| `DatasetPipeline.ThreeWaySplit` | forecasting/dataset.py:64-65 | train, validation and test parts, joined in that order, give the series; the test part is the last 20% and validation the last 20% of the rest |
| `DatasetPipeline.SplitOf260Rows` | forecasting/dataset.py:59-72 | 260 rows split into 166 / 42 / 52 |
| `DatasetPipeline.NonEmptyPartsFromThreeRows` | forecasting/dataset.py:64-65 | the train, validation and test parts all keep a row exactly when the series has at least three rows |
| `DatasetPipeline.TargetSplitMisaligned` | forecasting/dataset.py:39-72 | with 500 raw rows the covariates' test part starts at raw row 448 and the target's at raw row 400: the parts cover different hours |
| `DatasetPipeline.AlignedTarget` | forecasting/dataset.py:39-42 | the target cut to the rows after the warm-up is a one-column series on exactly the covariates' index |
| `DatasetPipeline.SameIndexSplitsAlike` | forecasting/dataset.py:63-72 | series on the same index are cut at the same hours in all three parts |
| `DatasetPipeline.AlignedTargetSplitsWithCovariates` | forecasting/dataset.py:63-72 | with the aligned target each target part covers exactly the hours of the matching covariate part |
| `DatasetPipeline.SplitAll` | forecasting/dataset.py:63-69 | the three covariate part lists have as many entries as there are historical variants |
| `DatasetPipeline.PartsRejoin` | forecasting/dataset.py:63-72 | for every variant and for the target, train, validation and test rejoin to the original series |
| `DatasetPipeline.SplitIsChronological` | forecasting/dataset.py:64-65 | every training timestamp precedes every validation timestamp, which precedes every test timestamp |
| `DatasetPipeline.PartitionOf` | forecasting/dataset.py:59-74 | `_partition` succeeds exactly when every covariate series and the target have at least three rows (darts refuses an empty part otherwise), and then gives the per-variant splits and the target split |
| `DatasetPipeline.SplitSeries` | forecasting/dataset.py:64-65 | the two `split_after` calls on one series raise exactly when a part would have no rows; otherwise they give the train, validation and test parts |
| `DatasetPipeline.Partition` | forecasting/dataset.py:59-74 | the loop gives exactly what `DatasetPipeline.PartitionOf` states: the per-variant splits and the target split, in variant order, or the empty-part error |
| `DatasetPipeline.BuiltContents` | forecasting/dataset.py:9-29 | a built dataset has scalers fitted on the first historical variant; one series per historical and per current variant, each scaled with those scalers; and `num_X_sets` partitions that rejoin to the historical series |
| `DatasetPipeline.Build` | forecasting/dataset.py:9-24 | a built dataset has one covariate series and one train, validation and test part per historical variant, and one series per current variant |
| `DatasetPipeline.BuildSucceedsOnWellFormedData` | forecasting/dataset.py:9-24 | construction succeeds when both variant lists are non-empty and every frame has the needed columns, a full window of rows and the first variant's width, and every historical frame has at least 242 rows so that each split part keeps a row |
| `DatasetPipeline.Dataset.NumXSets` | forecasting/dataset.py:27-29 | `num_X_sets` is the number of historical covariate series, which is also the number of validation and test partitions |
| `DatasetPipeline.Dataset.Unfitted` | forecasting/dataset.py:11-12 | a new dataset starts with both scalers unfitted and no series or partitions |
| `DatasetPipeline.Dataset.PreProcess` | forecasting/dataset.py:32-57 | the scalers afterwards are fitted on the first frame when the flag is set and unchanged otherwise; the result is one scaled series per frame plus the last target scaled once, or the first error |
| `DatasetPipeline.NewDataset` | forecasting/dataset.py:9-24 | construction in the working order succeeds exactly when `DatasetPipeline.Build` does, and the object then holds exactly its state, with one partition of each kind per historical series |
| `DatasetPipeline.NewDatasetAsWritten` | forecasting/dataset.py:15-22 | construction as written always fails: with no current frame, the IndexError of the print's `current_dfs[0]`; otherwise the error of the first `_pre_process` call on unfitted scalers |
| `Prediction.Values` | forecasting/prediction_set.py:66 | `df.values` has one row per timestamp and one entry per column, entry (r, c) being column c at row r |
| `Prediction.FlattenLength` | forecasting/prediction_set.py:66 | flattening rows of width w gives rows * w elements |
| `Prediction.FlattenElement` | forecasting/prediction_set.py:66 | element (r, c) of a flattened matrix sits at offset r * w + c |
| `Prediction.FlattenedCells` | forecasting/prediction_set.py:66 | the flattened values of a frame list column c of row r at offset r * width + c |
| `Prediction.WindowRows` | forecasting/prediction_set.py:53-62 | the end is start + (w - 1) hours; a missing start fails first, then a missing end; otherwise the rows from start to end, both included |
| `Prediction.Reshape` | forecasting/prediction_set.py:66 | `reshape` succeeds exactly when the shape's element count equals rows times columns, and keeps the requested shape; otherwise it raises |
| `Prediction.Window` | forecasting/prediction_set.py:41-66 | a missing end of the window is passed on as the error; a returned array has the requested shape and that many elements |
| `Prediction.WindowSucceeds` | forecasting/prediction_set.py:53-66 | a window is returned exactly when both ends are in the index and the shape's element count equals the window's value count |
| `Prediction.WindowTimestamps` | forecasting/prediction_set.py:53-62 | on a gap-free hourly index a window of width w has w rows stamped start .. start + w - 1 |
| `Prediction.ValuesOfSlice` | forecasting/prediction_set.py:62-66 | the values of a row slice are that slice of the frame's values |
| `Prediction.HourlyWindowRows` | forecasting/prediction_set.py:53-62 | on a gap-free hourly index the window is the w rows starting at the start's offset from the first timestamp |
| `Prediction.WindowContents` | forecasting/prediction_set.py:62-66 | the returned array has the requested shape and holds the w value rows from `start` on, flattened row by row |
| `Prediction.FiveHourWindow` | forecasting/prediction_set.py:41-66 | a concrete five-hour window with the default width, reshaped to (1, 5, 1) |
| `Prediction.PreProcessLive` | forecasting/prediction_set.py:26-38 | live data is scaled with the given scalers and no fitting; it fails exactly when either scaler cannot transform its frame |
| `Prediction.LiveScalingInverts` | forecasting/prediction_set.py:35-36 | the live series are the training scalers' transforms of the fetched frames, and those scalers' inverses recover the fetched frames |
| `Prediction.PredictionSet.Init` | forecasting/prediction_set.py:18-23 | the shape and scalers are taken as given, and the live series are set; the object is valid afterwards |
| `Prediction.PredictionSet.XInForWindow` | forecasting/prediction_set.py:41-67 | the window of the live covariates; on success both ends are in their index |
| `Prediction.PredictionSet.XInForWindowAsWritten` | forecasting/prediction_set.py:54-57 | reading `self.df` fails before any update (unset) and after one (a tuple) |
| `Prediction.PredictionSet.Update` | forecasting/prediction_set.py:69-74 | the live series are replaced by the fresh preprocessing with the unchanged scalers; a failure leaves them as they were; nothing else changes |
| `Prediction.PredictionSet.UpdateAsWritten` | forecasting/prediction_set.py:73-74 | only the `df` attribute is replaced, with the (X, y) pair |
| `Prediction.NewPredictionSet` | forecasting/prediction_set.py:10-23 | the dataset's scalers are taken over and the fetched frame preprocessed; a preprocessing error is the construction's error |
| `Ensemble.JoinPreds` | forecasting/forecaster.py:193-199 | each `min` entry is the smallest member value at that row and is one of them; each `max` entry is the largest and is one of them; each `mean` entry times the member count is the row sum; an empty list raises |
| `Ensemble.Aggregate` | forecasting/forecaster.py:193-199 | an empty ensemble raises; a band has three series as long as the members' series, which all have one length |
| `Ensemble.EnvelopeOrdered` | forecasting/forecaster.py:145-157 | with uncrossed quantiles, the intended band has min <= mean <= max at every row |
| `Ensemble.SingleMember` | forecasting/forecaster.py:145-157 | with the corrected join, a one-member ensemble returns that member's low, mid and high series (a deterministic member: its series three times) |
| `Ensemble.MixedEnsembleIntended` | forecasting/forecaster.py:141-159 | the intended join of that ensemble keeps the deterministic value 10.0 as the max |
| `Ensemble.AsWrittenStep` | forecasting/forecaster.py:185-197 | as written, a member is usable only when it is stochastic: a deterministic member reaches `pd.concat` as a darts series and raises; an earlier error passes through |
| `Ensemble.StochasticEnsemblesAgree` | forecasting/forecaster.py:141-159 | when every member is stochastic, the loop as written gives the intended band |
| `Ensemble.DeterministicMemberRaises` | forecasting/forecaster.py:141-159 | as written, any ensemble with a deterministic member raises TypeError, given a fitted one-column target scaler |
| `Ensemble.MixedEnsembleRaises` | forecasting/forecaster.py:141-159 | the members `[Deterministic([10.0]), Stochastic([0.0], [1.0], [2.0])]` raise as written; the intended join gives min 0.0, mean 5.5, max 10.0 |
| `Ensemble.UnscaleOutput` | forecasting/forecaster.py:144 | an unfitted target scaler raises; otherwise the member's kind is kept and each of its series is unscaled |
| `Ensemble.ScaleOutput` | forecasting/forecaster.py:144 | the member's output on the scaled target, series by series |
| `Ensemble.OutputRoundTrip` | forecasting/forecaster.py:144 | inverse scaling recovers an output given on the scaled target |
| `Ensemble.UnscaleMonotone` | forecasting/forecaster.py:144 | with a fitted scaler, inverse scaling preserves order |
| `Ensemble.UnscalePreservesOrder` | forecasting/forecaster.py:144-152 | with a fitted target scaler, inverse scaling keeps quantile series uncrossed |
| `Ensemble.MemberSteps` | forecasting/forecaster.py:141-144 | `zip` pairs member i with covariate variant i, stopping at the shorter list, and each output is inverse-scaled |
| `Ensemble.ListsExtend` | forecasting/forecaster.py:145-157 | one more member appends its series to the lists it contributes to |
| `Ensemble.ForecastEnvelope` | forecasting/forecaster.py:141-159 | the band is built from member i's output on variant i, one output per pair, and is ordered at every row |
| `Ensemble.ForecastEnsemble` | forecasting/forecaster.py:130-159 | the corrected loop computes the intended ensemble band, or the first member's scaling error |
| `Ensemble.EnsembleForecast` | forecasting/forecaster.py:130-159 | no member pair raises (no `df`); with members but an unfitted target scaler the first inverse scaling raises |
| `Ensemble.ForecastEnsembleAsWritten` | forecasting/forecaster.py:141-159 | the loop as written raises at the first deterministic member and otherwise computes the intended band |
| `Ensemble.IndexName` | forecasting/forecaster.py:50 | `str(i)` is a non-empty string of decimal digits, one digit exactly when i < 10 |
| `Ensemble.IndexNamesDistinct` | forecasting/forecaster.py:59-62 | distinct members get distinct checkpoint names |
| `Ensemble.IndexNameExamples` | forecasting/forecaster.py:62 | `str(0)`, `str(7)`, `str(12)` |
| `Ensemble.Members` | forecasting/forecaster.py:48-51 | n members, member i named `str(i)`, all in the model directory |
| `Ensemble.ModelSaveDir` | forecasting/forecaster.py:30 | `os.path.join(parent_dir, name, model_save_dir)`: the parent directory, the catchment name and the save directory in that order, separated by `/` |
| `Ensemble.MemberNamesDistinct` | forecasting/forecaster.py:48-70 | no two members share a checkpoint name |
| `Ensemble.BuildNewModels` | forecasting/forecaster.py:56-72 | exactly n new models, in index order, member i named `str(i)` |
| `Ensemble.LoadExistingModels` | forecasting/forecaster.py:45-53 | all n models are loaded in index order exactly when every checkpoint exists; otherwise it raises at the first missing index |
| `Ensemble.ChooseModels` | forecasting/forecaster.py:33-37 | the models are built when overwrite is set or the checkpoint directory is missing, and loaded otherwise |
| `Ensemble.InverseScaleWith` | forecasting/forecaster.py:215 | an unfitted scaler raises; a width mismatch raises; otherwise the inverse transform |
| `Ensemble.InverseScaleUndoesScaling` | forecasting/forecaster.py:202-217 | inverse scaling a scaled series gives the series back |
| `Ensemble.Forecaster.Init` | forecasting/forecaster.py:25-31 | the name, dataset, model directory and members are stored as given |
| `Ensemble.Forecaster.Fit` | forecasting/forecaster.py:92-96 | one fit call per (model, train variant, validation variant) triple, in order: model i gets variant i's train and validation covariates, with the shared target |
| `Ensemble.Forecaster.HistoricalForecasts` | forecasting/forecaster.py:130-159 | with the corrected join: members backtested on the test target with their own test covariates, joined into the band |
| `Ensemble.Forecaster.ForecastForHours` | forecasting/forecaster.py:162-190 | with the corrected join and the horizon absorbed by `predict` (see Left out): members predicting from the current target with their own current covariates, joined into the band |
| `Ensemble.Forecaster.InverseScaleAll` | forecasting/forecaster.py:202-217 | the same number of series in the same order, each inverse-transformed; otherwise the first error |
| `Ensemble.LevelAt` | forecasting/forecaster.py:117-127 | on the values `forecast_for` reads: a window error is passed on; a level is returned exactly when the window is cut and the target scaler is fitted on one column, and scaling it back gives the model's raw output on that window |
| `Ensemble.Forecaster.ForecastFor` | forecasting/forecaster.py:107-127 | a window error is passed on; a level is returned exactly when the window is cut and the target scaler is fitted on one column, and scaling it with the target scaler gives the model's raw output on that window |
| `Ensemble.RangeRecordsSpec` | forecasting/forecaster.py:99-104 | the records are one per hour start <= t < end, in increasing order, each holding that hour's level, exactly when no hour fails; otherwise the error is the first failing hour's |
| `Ensemble.Forecaster.ForecastForRange` | forecasting/forecaster.py:99-104 | the loop returns exactly the records `Ensemble.RangeRecordsSpec` describes, for the prediction set's live covariates and shape and the dataset's target scaler (the values `forecast_for` reads) |
| `Ensemble.NewForecaster` | forecasting/forecaster.py:18-37 | given a valid dataset, the model directory is parent/name/save-dir; there are `num_X_sets` members, built or loaded by the rule above |

Notes on what the table shows:

- Row counts follow the code: 500 input rows keep 261 rows (n - 239, `Features.FiveHundredRowsKeep261`).
- An ensemble of one deterministic member gives min = mean = max (`Ensemble.SingleMember`). With several distinct deterministic members the corrected join gives min <= mean <= max (`Ensemble.EnvelopeOrdered`), and the equalities do not hold.

## Left out

- `split_X_y`, `add_lag` and `scale` (`forecasting/general_utilities/df_utils`) are not part of this model. A raw frame arrives already split into covariates and a one-column target. `scale` is modelled as the min-max transform with the given scaler and no refit.
- Data fetching (`all_current_data`, `all_historical_data`, `update_for_inference`) is I/O. The fetched frames are parameters.
- darts/PyTorch model internals (`fit`, `predict`, `historical_forecasts`, trainer settings, likelihood, batch size, checkpoint layout) are opaque:
  - `fit` becomes the list of calls issued;
  - predictions are function parameters, which also absorb `num_samples` and the backtest arguments.
- `Ensemble.Forecaster.ForecastForHours`: the source calls darts' `predict` without the horizon `n` that darts requires (forecasting/forecaster.py:174), so as written it raises TypeError at the first member of any non-empty ensemble. The model takes the horizon as absorbed by the opaque `predict` parameter and returns the band, and the method's own `n` plays no part.
- Quantile estimation (`quantile_df`) is not modelled. A stochastic member is given by its 0.05, 0.5 and 0.95 quantile series, and those quantiles are inverse-scaled. Inverse min-max scaling is increasing, so this equals the quantiles of the inverse-scaled samples.
- Floating-point rounding is not modelled: values are `real`.
- Misaligned member outputs are not modelled with pandas' alignment. pandas would outer-join indices and skip NaN; the model reports `MisalignedOutputs` instead. Member outputs are plain sequences on one shared index.
- Timestamps are whole hours. `x_in_for_window`'s parsing of string timestamps is not modelled.
- `reshape` with a `-1` dimension is not modelled: every dimension of the shape is given.
- Logging, `print` and `os.makedirs` are not modelled.
- `os.path.join` is modelled as joining with `/`.
- Whether the checkpoint directory exists, and which checkpoints it holds, are parameters.
- `Dataset.input_shape` is never defined by `Dataset`, so the prediction set's input shape is a parameter.
- `Forecaster.forecast_for` and `forecast_for_range` use `self.model` and `self.prediction_set`, which `Forecaster` never assigns. Both are parameters.
- `PredictionSet.record_level_for` does not exist. `ForecastForRange` returns the (hour, level) records in order instead.
- `Forecaster.update_input_data` only calls the prediction set's update (itself modelled by `PredictionSet.Update`), through the unassigned `prediction_set` attribute. It has no member of its own.
- `Features.AddEngineeredFeatures` is modelled on values. The in-place change to the caller's frame (aliasing) is not captured. The raw frames are taken to hold no NaN, so `dropna` removes exactly the warm-up rows.
- `Ensemble.ForecastEnsembleAsWritten`: an empty ensemble raises `UnboundLocalError` on the unassigned `df`. The model reports it as `NoMembers`, the same error the corrected join gives.
- `DatasetPipeline.Prepare`: a raw frame is required to sit on a gap-free hourly index (`RawFrame.Valid`). darts' `from_dataframe` (forecasting/dataset.py:41-42), called without `freq` or `fill_missing_dates`, refuses an index whose frequency it cannot infer; the model takes the catchment data to be hourly and gap-free rather than modelling that refusal as an error.
- `DatasetPipeline.NewDataset`: the corrected construction reports an empty current list as `NoFrames`, from the current `_pre_process` call; the diagnostic print's `current_dfs[0]` (forecasting/dataset.py:16), and so its IndexError, is dropped with the logging in the corrected order.
- `Ensemble.Forecaster.ForecastFor`: the source hands the numpy array `np.array(self.model.predict(x_in))` to `target_scaler.inverse_transform` (forecasting/forecaster.py:119-123), but that darts `Scaler` (forecasting/dataset.py:12) accepts only a TimeSeries or a list of them, as its other calls (forecasting/forecaster.py:144, 175, 215) pass; as written it would raise even with its attributes supplied. The model applies the evidently intended min-max inverse of the fitted target scaler to the single level.
- `Ensemble.LevelAt`: the same deviation as `ForecastFor`, whose value it computes: the single level is unscaled with the plain min-max inverse, where the source's darts `Scaler` would refuse the numpy array.
- `Ensemble.Forecaster.ForecastFor`: when the window cannot be cut, the source passes the `None` it gets on to the model's `predict`, whose behaviour on it is outside this model; the model reports the window error instead.
- `Ensemble.LevelAt`: the same deviation as `ForecastFor`, whose value it computes: a window that cannot be cut is reported as the window error rather than handed to `predict` as `None`.
- `Ensemble.LevelAt`: the batch axis `np.array([x_in])` (forecasting/forecaster.py:118) and the unwrapping `y_pred[0][0]` (forecasting/forecaster.py:126) are folded into the opaque `predict: Tensor -> real`, which takes the unbatched window and returns the single scaled level.
- `DatasetPipeline.NewDataset` keeps the source's full-length target when partitioning, so its target parts are misaligned with the covariate parts (see Findings); `DatasetPipeline.AlignedTarget` states the intended target but construction does not use it.

## Findings

| source | as written | input that shows it | evidently intended | confidence | as-written member | corrected member |
|---|---|---|---|---|---|---|
| forecasting/dataset.py:15-22 | The current data is preprocessed with `fit_scalers=False` before the historical call fits the scalers, so the first `transform` runs on unfitted scalers and construction always raises | any catchment, e.g. one well-formed historical and one well-formed current variant | process the historical data first (fitting the scalers), then the current data with those scalers | high, not executed | `DatasetPipeline.NewDatasetAsWritten` (with `DatasetPipeline.UnfittedScalersAlwaysFail`) | `DatasetPipeline.NewDataset` (with `DatasetPipeline.BuildSucceedsOnWellFormedData`) |
| forecasting/forecaster.py:141-197 | a deterministic member's output is appended as a darts `TimeSeries`, not a pandas frame, so `pd.concat` in `_join_preds` raises TypeError for any ensemble with a deterministic member; the stochastic branch joins only the stochastic lists | members `[Deterministic([10.0]), Stochastic([0.0], [1.0], [2.0])]`: raises at member 0 | convert every member to a frame, let every member contribute to all three lists and join once: band 0.0 / 5.5 / 10.0, and min <= mean <= max always | high, not executed | `Ensemble.DeterministicMemberRaises` (loop: `Ensemble.ForecastEnsembleAsWritten`, example: `Ensemble.MixedEnsembleRaises`) | `Ensemble.MixedEnsembleIntended` (loop: `Ensemble.ForecastEnsemble`, property: `Ensemble.EnvelopeOrdered`) |
| forecasting/dataset.py:39-72 | the covariates lose their 239 warm-up rows but the target keeps every row, and both are split by position, so covariate and target parts cover different hours | 500 raw rows: the covariates' test part starts at raw row 448, the target's at raw row 400 | cut the target to the covariates' index before splitting, so matching parts cover the same hours | medium, not executed | `DatasetPipeline.TargetSplitMisaligned` | `DatasetPipeline.AlignedTargetSplitsWithCovariates` (with `DatasetPipeline.AlignedTarget`) |
| forecasting/prediction_set.py:54-62 | `x_in_for_window` reads `self.df`. `__init__` never sets it (AttributeError), and `update` sets it to the tuple `(X, y)`, whose `index` is a method, so `start in self.df.index` raises TypeError | any call, before or after `update` | read the live covariates `self.X` that `__init__` sets, and have `update` refresh `self.X, self.y` | high, not executed | `Prediction.PredictionSet.XInForWindowAsWritten` | `Prediction.PredictionSet.XInForWindow` (with `Prediction.WindowContents`) |

=== FILE: calendar.dfy ===
/** The calendar attribute the feature step reads from a frame's index
    (pandas `DatetimeIndex.day_of_year`), for proleptic Gregorian dates. */
module Calendar {
  import opened Common

  predicate IsLeapYear(y: int)
  {
    y % 4 == 0 && (y % 100 != 0 || y % 400 == 0)
  }

  /** The standard civil-from-days conversion of the hour `h`: count days in
      400-year eras starting on March 1st, so that the leap day is the last
      day of each shifted year. Gives the year that contains the preceding
      March 1st and the day counted from that March 1st (0 = March 1st). */
  function MarchDate(h: Hour): (int, int)
  {
    var days := h / 24;                       // floor division: Dafny's / is Euclidean
    var z := days + 719468;                   // days since 0000-03-01
    var era := z / 146097;
    var doe := z - era * 146097;              // day of era, 0 ..= 146096
    var yoe := (doe - doe / 1460 + doe / 36524 - doe / 146096) / 365;   // year of era
    (yoe + era * 400, doe - (365 * yoe + yoe / 4 - yoe / 100))
  }

  /** Day of the year (1 for January 1st) of the hour `h`. */
  function DayOfYear(h: Hour): (r: int)
    ensures 1 <= r <= 366
    ensures r == 366 ==> IsLeapYear(CivilYear(h))
  {
    var (year, doyMarch) := MarchDate(h);
    if doyMarch >= 306 then doyMarch - 306 + 1                 // January or February of year + 1
    else doyMarch + 59 + (if IsLeapYear(year) then 1 else 0) + 1
  }

  /** The calendar year containing the hour `h`. */
  function CivilYear(h: Hour): int
  {
    var (year, doyMarch) := MarchDate(h);
    if doyMarch >= 306 then year + 1 else year
  }

  /** Spot checks against known dates: 1970-01-01 is day 1, 2000-12-31
      (a leap year) is day 366. */
  lemma EpochIsDayOne()
    ensures DayOfYear(0) == 1
  {
    assert 0 / 24 == 0 && 719468 / 146097 == 4;
    assert 135080 / 1460 == 92 && 135080 / 36524 == 3 && 135080 / 146096 == 0;
    assert (135080 - 92 + 3 - 0) / 365 == 369;
    assert 369 / 4 == 92 && 369 / 100 == 3;
  }

  lemma LeapYearEndIsDay366()
    ensures DayOfYear(11322 * 24 + 23) == 366
  {
    assert (11322 * 24 + 23) / 24 == 11322 && 730790 / 146097 == 5;
    assert 730790 - 5 * 146097 == 305;
    assert 305 / 1460 == 0 && 305 / 36524 == 0 && 305 / 146096 == 0 && 305 / 365 == 0;
    assert 0 / 4 == 0 && 0 / 100 == 0;
  }
}

=== FILE: common.dfy ===
/** Shared vocabulary of the forecasting model: timestamps, optional values,
    the error conditions the pipeline can raise, and folds over real-valued
    sequences (minimum, maximum, sum) used by scaling, rolling features and
    ensemble aggregation. */
module Common {

  /** A timestamp, counted in whole hours since 1970-01-01T00:00 (naive time).
      Frames are sampled hourly, so "one hour later" is `t + 1`. */
  type Hour = int

  datatype Option<T> = None | Some(value: T)

  /** The exceptions the Python code raises (or would raise through pandas,
      darts or scikit-learn), as values. */
  datatype Error =
    | MissingColumn(name: string)   // pandas KeyError on a column lookup
    | InsufficientHistory           // no row survives the rolling-window warm-up
    | NoFrames                      // _pre_process given no frame: its target stays None
    | ScalerNotFitted               // transform called before fit
    | WidthMismatch                 // scaler fitted on a different number of columns
    | ModelLoadError(index: nat)    // no checkpoint for ensemble member `index`
    | WindowStartMissing            // window start not in the live frame's index
    | WindowEndMissing              // window end not in the live frame's index
    | ShapeMismatch                 // reshape to the model input shape impossible
    | NoMembers                     // aggregation over an empty ensemble
    | MisalignedOutputs             // members' outputs do not share one time index
    | AttributeMissing              // an attribute read before any assignment
    | NotAFrame                     // a frame operation applied to a tuple
    | EmptySeries                   // darts refuses a series with no rows
    | SeriesNotConcatenable         // pandas concat given a darts series rather than a pandas object
    | IndexOutOfRange               // Python IndexError: a list subscript past its end

  datatype Result<T> = Ok(value: T) | Err(error: Error)

  function Min(a: real, b: real): real { if a <= b then a else b }
  function Max(a: real, b: real): real { if a >= b then a else b }

  /** Smallest element of a non-empty sequence. */
  function MinOf(s: seq<real>): (r: real)
    requires |s| > 0
    ensures r in s
    ensures forall i :: 0 <= i < |s| ==> r <= s[i]
  {
    if |s| == 1 then s[0] else Min(s[0], MinOf(s[1..]))
  }

  /** Largest element of a non-empty sequence. */
  function MaxOf(s: seq<real>): (r: real)
    requires |s| > 0
    ensures r in s
    ensures forall i :: 0 <= i < |s| ==> s[i] <= r
  {
    if |s| == 1 then s[0] else Max(s[0], MaxOf(s[1..]))
  }

  function SumOf(s: seq<real>): real
  {
    if |s| == 0 then 0.0 else s[0] + SumOf(s[1..])
  }

  lemma {:induction false} SumOfConcat(a: seq<real>, b: seq<real>)
    ensures SumOf(a + b) == SumOf(a) + SumOf(b)
  {
    if |a| == 0 {
      assert a + b == b;
    } else {
      assert (a + b)[1..] == a[1..] + b;
      SumOfConcat(a[1..], b);
    }
  }

  /** A sum of values that all lie in [lo, hi] lies in [n*lo, n*hi]. */
  lemma {:induction false} SumOfBounds(s: seq<real>, lo: real, hi: real)
    requires forall i :: 0 <= i < |s| ==> lo <= s[i] <= hi
    ensures |s| as real * lo <= SumOf(s) <= |s| as real * hi
  {
    if |s| > 0 {
      assert forall i :: 0 <= i < |s| - 1 ==> s[1..][i] == s[i + 1];
      SumOfBounds(s[1..], lo, hi);
    }
  }

  /** The arithmetic mean of values that all lie in [lo, hi] lies in [lo, hi]. */
  lemma MeanBounds(s: seq<real>, lo: real, hi: real)
    requires |s| > 0
    requires forall i :: 0 <= i < |s| ==> lo <= s[i] <= hi
    ensures lo <= SumOf(s) / |s| as real <= hi
  {
    SumOfBounds(s, lo, hi);
    DivideBounds(SumOf(s), |s| as real, lo, hi);
  }

  lemma DivideBounds(x: real, n: real, lo: real, hi: real)
    requires n > 0.0 && n * lo <= x <= n * hi
    ensures lo <= x / n <= hi
  {
    assert x / n * n == x;
  }
  /** The values of a list of outcomes, in order, or the first error among
      them: the shape of a loop that appends one value per step and stops
      at the first step that raises. */
  function Collect<T>(rs: seq<Result<T>>): Result<seq<T>>
  {
    if |rs| == 0 then Ok([])
    else match Collect(rs[..|rs| - 1])
      case Err(e) => Err(e)
      case Ok(xs) =>
        match rs[|rs| - 1]
        case Err(e) => Err(e)
        case Ok(x) => Ok(xs + [x])
  }

  /** A successful collection has one value per outcome, each the value of
      its own outcome. */
  lemma {:induction false} CollectOk<T>(rs: seq<Result<T>>)
    requires Collect(rs).Ok?
    ensures |Collect(rs).value| == |rs|
    ensures forall i :: 0 <= i < |rs| ==> rs[i] == Ok(Collect(rs).value[i])
  {
    if |rs| > 0 {
      var front := rs[..|rs| - 1];
      CollectOk(front);
      forall i | 0 <= i < |front| ensures front[i] == rs[i] { }
    }
  }

  /** Once a prefix fails, the whole list fails with the same error: the
      steps after it are never reached. */
  lemma {:induction false} CollectErrorPersists<T>(rs: seq<Result<T>>, k: nat)
    requires k <= |rs| && Collect(rs[..k]).Err?
    ensures Collect(rs) == Collect(rs[..k])
    decreases |rs|
  {
    if k == |rs| {
      assert rs[..k] == rs;
    } else {
      var front := rs[..|rs| - 1];
      assert front[..k] == rs[..k];
      CollectErrorPersists(front, k);
    }
  }

  /** One more step of the loop: a failing outcome ends the collection
      with its error, a successful one appends its value. */
  lemma CollectExtend<T>(rs: seq<Result<T>>, i: nat, xs: seq<T>)
    requires i < |rs| && Collect(rs[..i]) == Ok(xs)
    ensures rs[i].Err? ==> Collect(rs) == Err(rs[i].error)
    ensures rs[i].Ok? ==> Collect(rs[..i + 1]) == Ok(xs + [rs[i].value])
  {
    assert rs[..i + 1][..i] == rs[..i];
    if rs[i].Err? {
      CollectErrorPersists(rs, i + 1);
    }
  }

  /** The collection fails exactly when some outcome is an error, and then
      with the first error. */
  lemma {:induction false} CollectFirstError<T>(rs: seq<Result<T>>)
    ensures Collect(rs).Ok? <==> forall i :: 0 <= i < |rs| ==> rs[i].Ok?
    ensures Collect(rs).Err? ==>
      exists k :: 0 <= k < |rs| && rs[k] == Err(Collect(rs).error) && (forall i :: 0 <= i < k ==> rs[i].Ok?)
  {
    if |rs| > 0 {
      var front := rs[..|rs| - 1];
      CollectFirstError(front);
      forall i | 0 <= i < |front| ensures front[i] == rs[i] { }
      if Collect(front).Err? {
        var k :| 0 <= k < |front| && front[k] == Err(Collect(front).error)
          && forall i :: 0 <= i < k ==> front[i].Ok?;
        assert rs[k] == Err(Collect(rs).error);
      } else if Collect(rs).Err? {
        assert rs[|rs| - 1] == Err(Collect(rs).error);
      }
    }
  }
}

=== FILE: dataset.dfy ===
/** The dataset pipeline (`forecasting/dataset.py`): per-variant frames are
    feature-engineered, converted to series and scaled with one scaler pair
    fitted on the first historical variant only; the historical variants and
    the shared target are then split by position into training, validation
    and test parts. */
module DatasetPipeline {
  import opened Common
  import opened Frames
  import opened Scaling
  import Features

  /** One raw per-variant frame after `split_X_y`: its covariate columns and
      its single target column, on the same gap-free hourly index (darts'
      `from_dataframe`, called without `freq` or `fill_missing_dates`,
      refuses an index whose frequency it cannot infer). */
  datatype RawFrame = RawFrame(x: Frame, y: Frame)
  {
    ghost predicate Valid()
    {
      x.Valid() && y.Valid() && y.index == x.index && y.Width() == 1 && Hourly(x.index)
    }
  }

  ghost predicate AllValid(dfs: seq<RawFrame>)
  {
    forall i :: 0 <= i < |dfs| ==> dfs[i].Valid()
  }

  /** What the catchment collaborator hands over: one historical and one
      current frame per feature-set variant. */
  datatype Catchment = Catchment(name: string, historical: seq<RawFrame>, current: seq<RawFrame>)

  /** The covariate and target scalers; `None` while unfitted. */
  datatype Scalers = Scalers(x: Option<MinMax>, y: Option<MinMax>)

  /** Feature engineering and conversion to a series for one frame. A frame
      whose rows all fall in the warm-up period yields no series. */
  function Prepare(raw: RawFrame): (r: Result<(Frame, Frame)>)
    requires raw.Valid()
    ensures r.Ok? ==> r.value.0.Valid() && r.value.0.Len() > 0 && r.value.1 == raw.y && raw.y.Len() > 0
    ensures r.Ok? ==> Features.AddEngineeredFeatures(raw.x) == Ok(r.value.0)
    ensures r.Err? ==> Features.AddEngineeredFeatures(raw.x).Err? || r.error == InsufficientHistory
  {
    match Features.AddEngineeredFeatures(raw.x)
    case Err(e) => Err(e)
    case Ok(x) => if x.Len() == 0 then Err(InsufficientHistory) else Ok((x, raw.y))
  }

  /** `scaler.transform(series)`: refused before `fit` and when the series
      has a different number of columns than the fitting series. */
  function ScaleWith(sc: Option<MinMax>, f: Frame): (r: Result<Frame>)
    requires f.Valid()
    ensures sc.None? ==> r == Err(ScalerNotFitted)
    ensures sc.Some? && |sc.value| != f.Width() ==> r == Err(WidthMismatch)
    ensures r.Ok? <==> sc.Some? && |sc.value| == f.Width()
    ensures r.Ok? ==> r.value == Transform(sc.value, f)
  {
    match sc
    case None => Err(ScalerNotFitted)
    case Some(s) => if |s| != f.Width() then Err(WidthMismatch) else Ok(Transform(s, f))
  }

  /** A prepared frame that a scaler can be fitted on. */
  ghost predicate Usable(p: Result<(Frame, Frame)>)
  {
    p.Ok? ==> p.value.0.Valid() && p.value.0.Len() > 0 && p.value.1.Valid() && p.value.1.Len() > 0 && p.value.1.Width() == 1
  }

  /** Every frame prepared, in order. */
  function PrepareEach(dfs: seq<RawFrame>): (ps: seq<Result<(Frame, Frame)>>)
    requires AllValid(dfs)
    ensures |ps| == |dfs| && forall k :: 0 <= k < |ps| ==> Usable(ps[k])
  {
    if |dfs| == 0 then [] else PrepareEach(dfs[..|dfs| - 1]) + [Prepare(dfs[|dfs| - 1])]
  }

  lemma {:induction false} PrepareEachAt(dfs: seq<RawFrame>, i: nat)
    requires AllValid(dfs) && i < |dfs|
    ensures PrepareEach(dfs)[i] == Prepare(dfs[i])
  {
    if i < |dfs| - 1 {
      PrepareEachAt(dfs[..|dfs| - 1], i);
    }
  }

  /** One loop iteration of `_pre_process` once the scalers are settled. */
  function ScaleStep(p: Result<(Frame, Frame)>, sc: Option<MinMax>): Result<Frame>
    requires Usable(p)
  {
    match p
    case Err(e) => Err(e)
    case Ok(q) => ScaleWith(sc, q.0)
  }

  function ProcessOne(raw: RawFrame, sc: Option<MinMax>): Result<Frame>
    requires raw.Valid()
  {
    ScaleStep(Prepare(raw), sc)
  }

  /** The outcome of each loop iteration, frame by frame. */
  function Steps(dfs: seq<RawFrame>, sc: Option<MinMax>): seq<Result<Frame>>
    requires AllValid(dfs)
  {
    var ps := PrepareEach(dfs);
    seq(|dfs|, i requires 0 <= i < |dfs| => ScaleStep(ps[i], sc))
  }

  /** The covariate series of every frame, in order, scaled with `sc`; the
      first frame that fails decides the error. */
  function ProcessAll(dfs: seq<RawFrame>, sc: Option<MinMax>): Result<seq<Frame>>
    requires AllValid(dfs)
  {
    Collect(Steps(dfs, sc))
  }

  /** The scalers after `_pre_process(dfs, fit_scalers=fit)`: with the flag
      set they are fitted on the first frame (covariates and target) and on
      nothing else; without it they are left as they were. */
  function ScalersAfter(dfs: seq<RawFrame>, s: Scalers, fit: bool): (r: Scalers)
    requires AllValid(dfs)
    ensures !fit ==> r == s
    ensures r != s ==> r.x.Some? && r.y.Some? && |r.y.value| == 1
  {
    var ps := PrepareEach(dfs);
    if fit && |dfs| > 0 && ps[0].Ok? then
      Scalers(Some(Fit(ps[0].value.0)), Some(Fit(ps[0].value.1)))
    else s
  }

  /** What `_pre_process` returns once the scalers are `s`: the scaled
      covariate series, one per frame, and the last frame's target scaled
      once. Without any frame the target stays `None` and transforming it
      fails. */
  function Outcome(dfs: seq<RawFrame>, s: Scalers): (r: Result<(seq<Frame>, Frame)>)
    requires AllValid(dfs)
    ensures |dfs| == 0 ==> r.Err?
    ensures r.Ok? ==> |r.value.0| == |dfs| && s.y.Some? && |s.y.value| == 1 && r.value.1 == Transform(s.y.value, dfs[|dfs| - 1].y)
  {
    match ProcessAll(dfs, s.x)
    case Err(e) => Err(e)
    case Ok(xs) =>
      CollectOk(Steps(dfs, s.x));
      if |dfs| == 0 then Err(NoFrames)
      else match ScaleWith(s.y, dfs[|dfs| - 1].y)
        case Err(e) => Err(e)
        case Ok(y) => Ok((xs, y))
  }

  /** `_pre_process` yields exactly one scaled covariate series per input
      frame, in input order, each the outcome of that frame's own
      iteration; it fails exactly when some frame fails. */
  lemma OnePerFrame(dfs: seq<RawFrame>, sc: Option<MinMax>)
    requires AllValid(dfs) && ProcessAll(dfs, sc).Ok?
    ensures |ProcessAll(dfs, sc).value| == |dfs|
    ensures forall i :: 0 <= i < |dfs| ==> ProcessOne(dfs[i], sc) == Ok(ProcessAll(dfs, sc).value[i])
  {
    var steps := Steps(dfs, sc);
    CollectOk(steps);
    forall i | 0 <= i < |dfs| ensures ProcessOne(dfs[i], sc) == steps[i] {
      PrepareEachAt(dfs, i);
    }
  }

  /** One iteration of the loop: a failing frame ends it with its own
      error, a successful one appends its series to those collected. */
  lemma Step(dfs: seq<RawFrame>, s: Scalers, i: nat, xs: seq<Frame>)
    requires AllValid(dfs) && i < |dfs| && Collect(Steps(dfs, s.x)[..i]) == Ok(xs)
    ensures Prepare(dfs[i]).Err? ==> Outcome(dfs, s) == Err(Prepare(dfs[i]).error)
    ensures Prepare(dfs[i]).Ok? ==> var x := ScaleWith(s.x, Prepare(dfs[i]).value.0);
      && (x.Err? ==> Outcome(dfs, s) == Err(x.error))
      && (x.Ok? ==> Collect(Steps(dfs, s.x)[..i + 1]) == Ok(xs + [x.value]))
  {
    var steps := Steps(dfs, s.x);
    PrepareEachAt(dfs, i);
    assert steps[i] == ProcessOne(dfs[i], s.x);
    CollectExtend(steps, i, xs);
  }

  /** A frame processed successfully is its engineered covariates scaled
      with the shared scaler. */
  lemma ProcessedFrame(raw: RawFrame, sc: Option<MinMax>)
    requires raw.Valid() && ProcessOne(raw, sc).Ok?
    ensures Prepare(raw).Ok? && sc.Some?
    ensures ProcessOne(raw, sc).value == Transform(sc.value, Prepare(raw).value.0)
  {
  }

  /** The scaler pair is fitted on the first frame only: the frames after
      it never change the fitted parameters. */
  lemma FittedOnFirstFrameOnly(dfs: seq<RawFrame>, s: Scalers)
    requires AllValid(dfs) && |dfs| > 0 && Prepare(dfs[0]).Ok?
    ensures ScalersAfter(dfs, s, true) == ScalersAfter(dfs[..1], s, true)
    ensures ScalersAfter(dfs, s, true).x == Some(Fit(Prepare(dfs[0]).value.0))
    ensures ScalersAfter(dfs, s, true).y == Some(Fit(dfs[0].y))
  {
    PrepareEachAt(dfs, 0);
    PrepareEachAt(dfs[..1], 0);
  }

  /** With the flag set, the scalers come from the first frame once it is
      prepared. */
  lemma FirstFrameFits(dfs: seq<RawFrame>, s: Scalers, x: Frame, y: Frame)
    requires AllValid(dfs) && |dfs| > 0 && Prepare(dfs[0]) == Ok((x, y))
    ensures ScalersAfter(dfs, s, true) == Scalers(Some(Fit(x)), Some(Fit(y)))
  {
    PrepareEachAt(dfs, 0);
  }

  /** A successful run with the flag set leaves both scalers fitted, the
      target scaler on one column. */
  lemma FittedAfterSuccess(dfs: seq<RawFrame>, s: Scalers)
    requires AllValid(dfs) && Outcome(dfs, ScalersAfter(dfs, s, true)).Ok?
    ensures |dfs| > 0 && Prepare(dfs[0]).Ok?
    ensures var fitted := ScalersAfter(dfs, s, true);
      && fitted == Scalers(Some(Fit(Prepare(dfs[0]).value.0)), Some(Fit(dfs[0].y)))
      && |fitted.y.value| == 1
  {
    var fitted := ScalersAfter(dfs, s, true);
    OnePerFrame(dfs, fitted.x);
    assert Prepare(dfs[0]).Ok?;
    PrepareEachAt(dfs, 0);
  }

  /** The first variant, on which the covariate scaler was fitted, is scaled
      into [0, 1] in every column; later variants may leave that range. */
  lemma FirstVariantInUnitRange(dfs: seq<RawFrame>, s: Scalers)
    requires AllValid(dfs) && Outcome(dfs, ScalersAfter(dfs, s, true)).Ok?
    ensures |Outcome(dfs, ScalersAfter(dfs, s, true)).value.0| == |dfs| > 0
    ensures Outcome(dfs, ScalersAfter(dfs, s, true)).value.0[0].Valid()
    ensures var x0 := Outcome(dfs, ScalersAfter(dfs, s, true)).value.0[0];
      forall j, i :: 0 <= j < x0.Width() && 0 <= i < x0.Len() ==> 0.0 <= x0.cols[j][i] <= 1.0
  {
    var fitted := ScalersAfter(dfs, s, true);
    FittedAfterSuccess(dfs, s);
    OnePerFrame(dfs, fitted.x);
    var x0 := Prepare(dfs[0]).value.0;
    ProcessedFrame(dfs[0], fitted.x);
    SelfScaledInUnitRange(x0, Outcome(dfs, fitted).value.0[0]);
    ValidSeries(dfs, fitted);
  }

  lemma SelfScaledInUnitRange(x: Frame, scaled: Frame)
    requires x.Valid() && x.Len() > 0 && scaled == Transform(Fit(x), x)
    ensures forall j, i :: 0 <= j < scaled.Width() && 0 <= i < scaled.Len() ==> 0.0 <= scaled.cols[j][i] <= 1.0
  {
    FittedDataInUnitRange(x);
  }

  /** The returned target is the last frame's target transformed once with
      the target scaler; when every variant carries the same target (the
      pipeline's standing assumption) it lies in [0, 1]. */
  lemma SharedTargetInUnitRange(dfs: seq<RawFrame>, s: Scalers)
    requires AllValid(dfs) && Outcome(dfs, ScalersAfter(dfs, s, true)).Ok?
    ensures |dfs| > 0 && Prepare(dfs[0]).Ok?
    ensures Outcome(dfs, ScalersAfter(dfs, s, true)).value.1 == Transform(Fit(dfs[0].y), dfs[|dfs| - 1].y)
    ensures dfs[|dfs| - 1].y == dfs[0].y ==>
      var y := Outcome(dfs, ScalersAfter(dfs, s, true)).value.1;
      forall i :: 0 <= i < y.Len() ==> 0.0 <= y.cols[0][i] <= 1.0
  {
    FittedAfterSuccess(dfs, s);
    FittedOnFirstFrameOnly(dfs, s);
    if dfs[|dfs| - 1].y == dfs[0].y {
      FittedDataInUnitRange(dfs[0].y);
    }
  }

  /** With unfitted scalers `_pre_process` cannot succeed: either there is
      no frame (the target stays `None`) or the first transform is refused. */
  lemma UnfittedScalersAlwaysFail(dfs: seq<RawFrame>)
    requires AllValid(dfs)
    ensures Outcome(dfs, Scalers(None, None)).Err?
  {
    if |dfs| > 0 {
      var steps := Steps(dfs, None);
      assert steps[0].Err?;
      CollectFirstError(steps);
    }
  }

  // ---------------------------------------------------------------------
  // Positional splitting (`_partition`)

  const TestSize: real := 0.2
  const ValidationSize: real := 0.2

  /** Length of the first part of darts' `split_after(p)` on an n-row series:
      the row at position floor((n - 1) * p) is the last row kept. */
  function SplitPoint(n: nat, p: real): (k: nat)
    requires 0.0 <= p <= 1.0
    ensures n == 0 ==> k == 0
    ensures n > 0 ==> 1 <= k <= n
    ensures n > 0 ==> (n - 1) as real * p < k as real <= (n - 1) as real * p + 1.0
  {
    if n == 0 then 0
    else
      ScaledBelow(n - 1, p);
      ((n - 1) as real * p).Floor + 1
  }

  lemma ScaledBelow(m: nat, p: real)
    requires 0.0 <= p <= 1.0
    ensures 0.0 <= m as real * p <= m as real
  {
    assert m as real - m as real * p == m as real * (1.0 - p);
  }

  /** `series.split_after(p)`: the first part and the rest; joined back they
      give the series. */
  function SplitAfter(f: Frame, p: real): (r: (Frame, Frame))
    requires f.Valid() && 0.0 <= p <= 1.0
    ensures r.0.Valid() && r.1.Valid() && r.0.Width() == f.Width() && r.1.Width() == f.Width()
    ensures r.0.Len() == SplitPoint(f.Len(), p) && r.1.Len() == f.Len() - SplitPoint(f.Len(), p)
    ensures r.0.Concat(r.1) == f
  {
    var k := SplitPoint(f.Len(), p);
    SplitRejoin(f, k);
    (f.Slice(0, k), f.Slice(k, f.Len()))
  }

  /** The nested split of one series into (train, validation, test): the
      test part is the most recent 20%, the validation part the most recent
      20% of what remains. Joined in order the parts give the series back. */
  function ThreeWaySplit(f: Frame): (r: (Frame, Frame, Frame))
    requires f.Valid()
    ensures r.0.Valid() && r.1.Valid() && r.2.Valid()
    ensures r.0.Width() == f.Width() && r.1.Width() == f.Width() && r.2.Width() == f.Width()
    ensures r.0.Concat(r.1).Concat(r.2) == f
    ensures var trainAndValidation := SplitPoint(f.Len(), 1.0 - TestSize);
      && r.2.Len() == f.Len() - trainAndValidation
      && r.0.Len() == SplitPoint(trainAndValidation, 1.0 - ValidationSize)
      && r.1.Len() == trainAndValidation - SplitPoint(trainAndValidation, 1.0 - ValidationSize)
  {
    var (trainAndValidation, test) := SplitAfter(f, 1.0 - TestSize);
    var (train, validation) := SplitAfter(trainAndValidation, 1.0 - ValidationSize);
    (train, validation, test)
  }

  /** A 260-row series is split into 166 training, 42 validation and 52
      test rows. */
  lemma SplitOf260Rows(f: Frame)
    requires f.Valid() && f.Len() == 260
    ensures ThreeWaySplit(f).0.Len() == 166 && ThreeWaySplit(f).1.Len() == 42 && ThreeWaySplit(f).2.Len() == 52
  {
    assert (259 as real * 0.8).Floor == 207;
    assert (207 as real * 0.8).Floor == 165;
  }

  /** darts builds no series without rows: the split raises unless all
      three parts keep at least one row. */
  predicate NonEmptyParts(f: Frame)
    requires f.Valid()
  {
    var (train, validation, test) := ThreeWaySplit(f);
    train.Len() > 0 && validation.Len() > 0 && test.Len() > 0
  }

  /** All three parts keep a row exactly when the series has three rows. */
  lemma NonEmptyPartsFromThreeRows(f: Frame)
    requires f.Valid()
    ensures NonEmptyParts(f) <==> f.Len() >= 3
  {
    var n := f.Len();
    var m := SplitPoint(n, 1.0 - TestSize);
    if n >= 3 {
      assert m < n by {
        assert (n - 1) as real * 0.8 + 1.0 < n as real;
      }
      assert m >= 2;
      var k := SplitPoint(m, 1.0 - ValidationSize);
      assert k < m by {
        assert (m - 1) as real * 0.8 + 1.0 < m as real;
      }
    } else if n == 2 {
      assert m == 1;
    }
  }

  /** As written, the covariates lose their 239 warm-up rows while the
      target keeps them, and each is split by its own length: on 500 raw
      rows the covariates' test part starts at raw row 448 and the target's
      at raw row 400, so the two parts cover different hours. */
  lemma TargetSplitMisaligned(raw: RawFrame)
    requires raw.Valid() && raw.x.Len() == 500 && Prepare(raw).Ok?
    ensures var x := Prepare(raw).value.0;
      && ThreeWaySplit(x).2.Len() > 0 && ThreeWaySplit(raw.y).2.Len() > 0
      && ThreeWaySplit(x).2.index[0] == raw.x.index[448]
      && ThreeWaySplit(raw.y).2.index[0] == raw.x.index[400]
      && ThreeWaySplit(x).2.index[0] != ThreeWaySplit(raw.y).2.index[0]
  {
    var x := Prepare(raw).value.0;
    assert x.index == raw.x.index[239..];
    assert SplitPoint(261, 0.8) == 209 by {
      assert (260 as real * 0.8).Floor == 208;
    }
    assert SplitPoint(500, 0.8) == 400 by {
      assert (499 as real * 0.8).Floor == 399;
    }
    assert raw.x.index[400] < raw.x.index[448];
  }

  /** The evidently intended target: cut to the covariates' rows, the rows
      after the warm-up. */
  function AlignedTarget(raw: RawFrame): (y: Frame)
    requires raw.Valid()
    ensures y.Valid() && y.Width() == 1
    ensures Prepare(raw).Ok? ==> y.index == Prepare(raw).value.0.index
  {
    raw.y.Slice(Features.WarmupRows(raw.y.Len()), raw.y.Len())
  }

  /** Series on the same index are cut at the same hours. */
  lemma SameIndexSplitsAlike(f: Frame, g: Frame)
    requires f.Valid() && g.Valid() && f.index == g.index
    ensures ThreeWaySplit(f).0.index == ThreeWaySplit(g).0.index
    ensures ThreeWaySplit(f).1.index == ThreeWaySplit(g).1.index
    ensures ThreeWaySplit(f).2.index == ThreeWaySplit(g).2.index
  {
  }

  /** With the aligned target, every target part covers exactly the hours
      of the matching covariate part. */
  lemma AlignedTargetSplitsWithCovariates(raw: RawFrame)
    requires raw.Valid() && Prepare(raw).Ok?
    ensures var x, y := Prepare(raw).value.0, AlignedTarget(raw);
      && ThreeWaySplit(x).0.index == ThreeWaySplit(y).0.index
      && ThreeWaySplit(x).1.index == ThreeWaySplit(y).1.index
      && ThreeWaySplit(x).2.index == ThreeWaySplit(y).2.index
  {
    SameIndexSplitsAlike(Prepare(raw).value.0, AlignedTarget(raw));
  }

  datatype Partitioned = Partitioned(
    xTrains: seq<Frame>, xTests: seq<Frame>, xValidations: seq<Frame>,
    yTrain: Frame, yTest: Frame, yValidation: Frame)

  ghost predicate AllFramesValid(fs: seq<Frame>)
  {
    forall i :: 0 <= i < |fs| ==> fs[i].Valid()
  }

  /** The partitions `_partition` produces: one (train, validation, test)
      split per covariate series, in variant order, and the same split of
      the target. */
  function SplitAll(xs: seq<Frame>, y: Frame): (p: Partitioned)
    requires AllFramesValid(xs) && y.Valid()
    ensures |p.xTrains| == |xs| && |p.xTests| == |xs| && |p.xValidations| == |xs|
  {
    Partitioned(
      seq(|xs|, i requires 0 <= i < |xs| => ThreeWaySplit(xs[i]).0),
      seq(|xs|, i requires 0 <= i < |xs| => ThreeWaySplit(xs[i]).2),
      seq(|xs|, i requires 0 <= i < |xs| => ThreeWaySplit(xs[i]).1),
      ThreeWaySplit(y).0, ThreeWaySplit(y).2, ThreeWaySplit(y).1)
  }

  /** `_partition` with darts' refusal of empty series: it raises unless
      every covariate series and the target keep a row in each part. */
  function PartitionOf(xs: seq<Frame>, y: Frame): (r: Result<Partitioned>)
    requires AllFramesValid(xs) && y.Valid()
    ensures r.Ok? <==> (forall i :: 0 <= i < |xs| ==> xs[i].Len() >= 3) && y.Len() >= 3
    ensures r.Ok? ==> r.value == SplitAll(xs, y)
    ensures r.Err? ==> r.error == EmptySeries
  {
    NonEmptyPartsFromThreeRows(y);
    assert forall i :: 0 <= i < |xs| ==> (NonEmptyParts(xs[i]) <==> xs[i].Len() >= 3) by {
      forall i | 0 <= i < |xs| ensures NonEmptyParts(xs[i]) <==> xs[i].Len() >= 3 {
        NonEmptyPartsFromThreeRows(xs[i]);
      }
    }
    if (forall i :: 0 <= i < |xs| ==> NonEmptyParts(xs[i])) && NonEmptyParts(y) then Ok(SplitAll(xs, y))
    else Err(EmptySeries)
  }

  /** Every series is split without loss or reordering: training, then
      validation, then test rows, joined in that order, give the series
      back. */
  lemma PartsRejoin(xs: seq<Frame>, y: Frame)
    requires AllFramesValid(xs) && y.Valid()
    ensures var p := SplitAll(xs, y);
      forall i :: 0 <= i < |xs| ==>
        && p.xTrains[i].Width() == p.xValidations[i].Width() == p.xTests[i].Width()
        && p.xTrains[i].Concat(p.xValidations[i]).Concat(p.xTests[i]) == xs[i]
    ensures var p := SplitAll(xs, y);
      && p.yTrain.Width() == p.yValidation.Width() == p.yTest.Width()
      && p.yTrain.Concat(p.yValidation).Concat(p.yTest) == y
  {
    var p := SplitAll(xs, y);
    forall i | 0 <= i < |xs|
      ensures p.xTrains[i].Width() == p.xValidations[i].Width() == p.xTests[i].Width()
      ensures p.xTrains[i].Concat(p.xValidations[i]).Concat(p.xTests[i]) == xs[i]
    {
      var t := ThreeWaySplit(xs[i]);
      assert (p.xTrains[i], p.xValidations[i], p.xTests[i]) == t;
    }
  }

  /** The split is chronological: on an increasing index every training
      timestamp precedes every validation timestamp, which precedes every
      test timestamp. */
  lemma SplitIsChronological(f: Frame)
    requires f.Valid()
    ensures var (train, validation, test) := ThreeWaySplit(f);
      && (forall a, b :: 0 <= a < train.Len() && 0 <= b < validation.Len() ==> train.index[a] < validation.index[b])
      && (forall a, b :: 0 <= a < validation.Len() && 0 <= b < test.Len() ==> validation.index[a] < test.index[b])
  {
    var (train, validation, test) := ThreeWaySplit(f);
    assert f.index == train.index + validation.index + test.index;
    ConsecutiveRunsOrdered(train.index, validation.index, test.index);
  }

  lemma ConsecutiveRunsOrdered(s: seq<Hour>, t: seq<Hour>, u: seq<Hour>)
    requires Increasing(s + t + u)
    ensures forall a, b :: 0 <= a < |s| && 0 <= b < |t| ==> s[a] < t[b]
    ensures forall a, b :: 0 <= a < |t| && 0 <= b < |u| ==> t[a] < u[b]
  {
    var whole := s + t + u;
    forall a, b | 0 <= a < |s| && 0 <= b < |t| ensures s[a] < t[b] {
      assert s[a] == whole[a] && t[b] == whole[|s| + b];
    }
    forall a, b | 0 <= a < |t| && 0 <= b < |u| ensures t[a] < u[b] {
      assert t[a] == whole[|s| + a] && u[b] == whole[|s| + |t| + b];
    }
  }

  /** The two `split_after` calls `_partition` makes on one series: the
      last 20% is the test part, then the last 20% of the rest is the
      validation part; darts raises when either call leaves a part without
      rows. */
  method SplitSeries(f: Frame) returns (r: Result<(Frame, Frame, Frame)>)
    requires f.Valid()
    ensures r.Ok? <==> NonEmptyParts(f)
    ensures r.Ok? ==> r.value == ThreeWaySplit(f)
    ensures r.Err? ==> r.error == EmptySeries
  {
    var (train, test) := SplitAfter(f, 1.0 - TestSize);
    if train.Len() == 0 || test.Len() == 0 {
      return Err(EmptySeries);
    }
    var (train', validation) := SplitAfter(train, 1.0 - ValidationSize);
    if train'.Len() == 0 || validation.Len() == 0 {
      return Err(EmptySeries);
    }
    r := Ok((train', validation, test));
  }

  /** `_partition`: split each historical covariate series and then the
      target, appending to three lists in variant order; a split that
      leaves a part without rows raises. */
  method Partition(xs: seq<Frame>, y: Frame) returns (r: Result<Partitioned>)
    requires AllFramesValid(xs) && y.Valid()
    ensures r == PartitionOf(xs, y)
  {
    var xTrains, xTests, xValidations := [], [], [];
    for i := 0 to |xs|
      invariant |xTrains| == i && |xTests| == i && |xValidations| == i
      invariant forall k :: 0 <= k < i ==> (xTrains[k], xValidations[k], xTests[k]) == ThreeWaySplit(xs[k])
      invariant forall k :: 0 <= k < i ==> NonEmptyParts(xs[k])
    {
      var parts := SplitSeries(xs[i]);
      if parts.Err? {
        return Err(parts.error);
      }
      var (xTrain, xValidation, xTest) := parts.value;
      xTrains := xTrains + [xTrain];
      xTests := xTests + [xTest];
      xValidations := xValidations + [xValidation];
    }
    var parts := SplitSeries(y);
    if parts.Err? {
      return Err(parts.error);
    }
    var (yTrain, yValidation, yTest) := parts.value;
    var p := Partitioned(xTrains, xTests, xValidations, yTrain, yTest, yValidation);
    var q := SplitAll(xs, y);
    assert p.xTrains == q.xTrains && p.xTests == q.xTests && p.xValidations == q.xValidations;
    r := Ok(p);
  }

  // ---------------------------------------------------------------------
  // What the constructor builds

  /** The state of a constructed `Dataset`. */
  datatype Built = Built(
    scalers: Scalers, xsCurrent: seq<Frame>, yCurrent: Frame,
    xsHistorical: seq<Frame>, yHistorical: Frame, parts: Partitioned)

  /** The construction, with the historical data processed first so that the
      scalers are fitted before the current data is transformed: the
      scalers are fitted on the first historical variant, the current data
      is scaled with them without a refit, and the historical series are
      partitioned. The first failing step decides the error. */
  function Build(ctx: Catchment): (r: Result<Built>)
    requires AllValid(ctx.historical) && AllValid(ctx.current)
    ensures r.Ok? ==> var b := r.value;
      && |b.parts.xTrains| == |b.parts.xValidations| == |b.parts.xTests| == |b.xsHistorical| == |ctx.historical|
      && |b.xsCurrent| == |ctx.current|
  {
    var fitted := ScalersAfter(ctx.historical, Scalers(None, None), true);
    match Outcome(ctx.historical, fitted)
    case Err(e) => Err(e)
    case Ok(h) =>
      match Outcome(ctx.current, fitted)
      case Err(e) => Err(e)
      case Ok(c) =>
        ValidSeries(ctx.historical, fitted);
        match PartitionOf(h.0, h.1)
        case Err(e) => Err(e)
        case Ok(p) => Ok(Built(fitted, c.0, c.1, h.0, h.1, p))
  }

  /** The series a successful `_pre_process` returns are well-formed. */
  lemma ValidSeries(dfs: seq<RawFrame>, s: Scalers)
    requires AllValid(dfs) && Outcome(dfs, s).Ok?
    ensures AllFramesValid(Outcome(dfs, s).value.0) && Outcome(dfs, s).value.1.Valid()
  {
    OnePerFrame(dfs, s.x);
  }

  /** What a constructed dataset holds: scalers fitted on the first
      historical variant only; one scaled covariate series per historical
      and per current variant, each obtained with those scalers; one
      partition entry per historical variant (`num_X_sets`); and every
      partitioned series recoverable from its parts. */
  lemma BuiltContents(ctx: Catchment)
    requires AllValid(ctx.historical) && AllValid(ctx.current) && Build(ctx).Ok?
    ensures |ctx.historical| > 0 && Prepare(ctx.historical[0]).Ok?
    ensures var b := Build(ctx).value; var h0 := ctx.historical[0];
      b.scalers == Scalers(Some(Fit(Prepare(h0).value.0)), Some(Fit(h0.y)))
    ensures var b := Build(ctx).value;
      && |b.xsHistorical| == |ctx.historical| == |b.parts.xTrains|
      && |b.xsCurrent| == |ctx.current|
      && (forall i :: 0 <= i < |ctx.historical| ==> ProcessOne(ctx.historical[i], b.scalers.x) == Ok(b.xsHistorical[i]))
      && (forall i :: 0 <= i < |ctx.current| ==> ProcessOne(ctx.current[i], b.scalers.x) == Ok(b.xsCurrent[i]))
    ensures var b := Build(ctx).value;
      forall i :: 0 <= i < |b.xsHistorical| ==>
        && b.parts.xTrains[i].Width() == b.parts.xValidations[i].Width() == b.parts.xTests[i].Width()
        && b.parts.xTrains[i].Concat(b.parts.xValidations[i]).Concat(b.parts.xTests[i]) == b.xsHistorical[i]
  {
    var fitted := ScalersAfter(ctx.historical, Scalers(None, None), true);
    FittedAfterSuccess(ctx.historical, Scalers(None, None));
    OnePerFrame(ctx.historical, fitted.x);
    OnePerFrame(ctx.current, fitted.x);
    var h := Outcome(ctx.historical, fitted).value;
    ValidSeries(ctx.historical, fitted);
    PartsRejoin(h.0, h.1);
  }

  /** Construction succeeds on well-formed data: at least one historical
      and one current variant, every variant on a gap-free hourly index,
      carrying the needed columns and at least a full window of rows, every variant's engineered covariates
      as wide as the first historical variant's, and every historical
      variant two rows beyond the window, so that each split part keeps a
      row. */
  lemma BuildSucceedsOnWellFormedData(ctx: Catchment)
    requires AllValid(ctx.historical) && AllValid(ctx.current) && |ctx.historical| > 0 && |ctx.current| > 0
    requires forall i :: 0 <= i < |ctx.historical| ==> Prepare(ctx.historical[i]).Ok?
    requires forall i :: 0 <= i < |ctx.current| ==> Prepare(ctx.current[i]).Ok?
    requires forall i :: 0 <= i < |ctx.historical| ==>
      Prepare(ctx.historical[i]).value.0.Width() == Prepare(ctx.historical[0]).value.0.Width()
    requires forall i :: 0 <= i < |ctx.current| ==>
      Prepare(ctx.current[i]).value.0.Width() == Prepare(ctx.historical[0]).value.0.Width()
    requires forall i :: 0 <= i < |ctx.historical| ==> ctx.historical[i].x.Len() >= Features.WindowRows + 2
    ensures Build(ctx).Ok?
  {
    var fitted := ScalersAfter(ctx.historical, Scalers(None, None), true);
    var x0 := Prepare(ctx.historical[0]).value.0;
    PrepareEachAt(ctx.historical, 0);
    assert fitted == Scalers(Some(Fit(x0)), Some(Fit(ctx.historical[0].y)));
    assert |fitted.x.value| == x0.Width() && |fitted.y.value| == 1;
    AllStepsSucceed(ctx.historical, fitted);
    AllStepsSucceed(ctx.current, fitted);
    var h := Outcome(ctx.historical, fitted).value;
    ValidSeries(ctx.historical, fitted);
    LongEnoughSeries(ctx.historical, fitted);
    assert PartitionOf(h.0, h.1).Ok?;
  }

  /** Frames two rows beyond the window give series of at least three rows. */
  lemma LongEnoughSeries(dfs: seq<RawFrame>, s: Scalers)
    requires AllValid(dfs) && Outcome(dfs, s).Ok?
    requires forall i :: 0 <= i < |dfs| ==> dfs[i].x.Len() >= Features.WindowRows + 2
    ensures var (xs, y) := Outcome(dfs, s).value;
      (forall i :: 0 <= i < |xs| ==> xs[i].Len() >= 3) && y.Len() >= 3
  {
    var (xs, y) := Outcome(dfs, s).value;
    OnePerFrame(dfs, s.x);
    forall i | 0 <= i < |xs| ensures xs[i].Len() >= 3 {
      ProcessedFrame(dfs[i], s.x);
    }
  }

  lemma AllStepsSucceed(dfs: seq<RawFrame>, s: Scalers)
    requires AllValid(dfs) && |dfs| > 0 && s.x.Some? && s.y.Some? && |s.y.value| == 1
    requires forall i :: 0 <= i < |dfs| ==> Prepare(dfs[i]).Ok? && Prepare(dfs[i]).value.0.Width() == |s.x.value|
    ensures Outcome(dfs, s).Ok?
  {
    var steps := Steps(dfs, s.x);
    forall i | 0 <= i < |dfs| ensures steps[i].Ok? {
      PrepareEachAt(dfs, i);
      assert steps[i] == ProcessOne(dfs[i], s.x);
    }
    CollectFirstError(steps);
  }

  // ---------------------------------------------------------------------
  // The Dataset object

  /** The state `Dataset.__init__` builds: the scaler pair, the scaled
      current and historical series and the partitions. */
  class Dataset {
    var scaler: Option<MinMax>
    var targetScaler: Option<MinMax>
    var xsCurrent: seq<Frame>
    var yCurrent: Frame
    var xsHistorical: seq<Frame>
    var yHistorical: Frame
    var xTrains: seq<Frame>
    var xTests: seq<Frame>
    var xValidations: seq<Frame>
    var yTrain: Frame
    var yTest: Frame
    var yValidation: Frame

    /** The object's fields as a value. */
    function State(): Built
      reads this
    {
      Built(Scalers(scaler, targetScaler), xsCurrent, yCurrent, xsHistorical, yHistorical,
            Partitioned(xTrains, xTests, xValidations, yTrain, yTest, yValidation))
    }

    /** One training, validation and test partition per historical
        covariate variant. */
    ghost predicate Valid()
      reads this
    {
      |xTrains| == |xValidations| == |xTests| == |xsHistorical|
    }

    /** `num_X_sets`: the number of training partitions, which is the
        number of historical feature-set variants. */
    function NumXSets(): (n: nat)
      requires Valid()
      reads this
      ensures n == |xsHistorical| && n == |xValidations| && n == |xTests|
    {
      |xTrains|
    }

    /** Record the processed series and their partitions; the scalers stay. */
    method Store(current: (seq<Frame>, Frame), historical: (seq<Frame>, Frame), p: Partitioned)
      requires |p.xTrains| == |p.xValidations| == |p.xTests| == |historical.0|
      modifies this
      ensures State() == Built(old(Scalers(scaler, targetScaler)), current.0, current.1, historical.0, historical.1, p)
      ensures Valid()
    {
      xsCurrent, yCurrent := current.0, current.1;
      xsHistorical, yHistorical := historical.0, historical.1;
      xTrains, xTests, xValidations := p.xTrains, p.xTests, p.xValidations;
      yTrain, yTest, yValidation := p.yTrain, p.yTest, p.yValidation;
    }

    /** Fresh scalers, not yet fitted; no data yet. */
    constructor Unfitted()
      ensures scaler == None && targetScaler == None
      ensures xsCurrent == [] && xsHistorical == [] && xTrains == [] && xTests == [] && xValidations == []
      ensures Valid()
    {
      scaler, targetScaler := None, None;
      xsCurrent, xsHistorical := [], [];
      xTrains, xTests, xValidations := [], [], [];
      yCurrent, yHistorical := EmptyFrame(), EmptyFrame();
      yTrain, yTest, yValidation := EmptyFrame(), EmptyFrame(), EmptyFrame();
    }

    /** `_pre_process(dfs, fit_scalers)`: the loop appends one scaled
        covariate series per frame; a local flag, set from `fit_scalers`,
        makes the first iteration fit both scalers and is cleared at once.
        The target kept is the last frame's, transformed after the loop. */
    method PreProcess(dfs: seq<RawFrame>, fitScalers: bool) returns (r: Result<(seq<Frame>, Frame)>)
      requires AllValid(dfs)
      modifies this`scaler, this`targetScaler
      ensures Scalers(scaler, targetScaler) == ScalersAfter(dfs, Scalers(old(scaler), old(targetScaler)), fitScalers)
      ensures r == Outcome(dfs, Scalers(scaler, targetScaler))
    {
      ghost var before := Scalers(scaler, targetScaler);
      ghost var final := ScalersAfter(dfs, before, fitScalers);
      var xs: seq<Frame> := [];
      var y: Option<Frame> := None;
      var fit := fitScalers;
      for i := 0 to |dfs|
        invariant fit == (fitScalers && i == 0)
        invariant Scalers(scaler, targetScaler) == if i == 0 then before else final
        invariant Collect(Steps(dfs, final.x)[..i]) == Ok(xs)
        invariant y == if i == 0 then None else Some(dfs[i - 1].y)
      {
        Step(dfs, final, i, xs);
        var prepared := Prepare(dfs[i]);
        if prepared.Err? {
          PrepareEachAt(dfs, i);
          assert Scalers(scaler, targetScaler) == final;
          return Err(prepared.error);
        }
        var (x, yCur) := prepared.value;
        if fit {
          FirstFrameFits(dfs, before, x, yCur);
          scaler := Some(Fit(x));
          targetScaler := Some(Fit(yCur));
          fit := false;
        }
        assert Scalers(scaler, targetScaler) == final;
        var scaled := ScaleWith(scaler, x);
        if scaled.Err? {
          return Err(scaled.error);
        }
        xs := xs + [scaled.value];
        y := Some(yCur);
      }
      assert Steps(dfs, final.x)[..|dfs|] == Steps(dfs, final.x);
      assert ProcessAll(dfs, final.x) == Ok(xs);
      if y.None? {
        return Err(NoFrames);
      }
      var scaledY := ScaleWith(targetScaler, y.value);
      if scaledY.Err? {
        return Err(scaledY.error);
      }
      r := Ok((xs, scaledY.value));
    }
  }

  /** `Dataset(catchment_data)` with the two `_pre_process` calls in the order
      that lets it succeed (historical, then current), then `_partition`. */
  method NewDataset(ctx: Catchment) returns (r: Result<Dataset>)
    requires AllValid(ctx.historical) && AllValid(ctx.current)
    ensures r.Ok? <==> Build(ctx).Ok?
    ensures r.Err? ==> Build(ctx) == Err(r.error)
    ensures r.Ok? ==> fresh(r.value) && r.value.State() == Build(ctx).value && r.value.Valid()
  {
    var d := new Dataset.Unfitted();
    var historical := d.PreProcess(ctx.historical, true);
    ghost var fitted := ScalersAfter(ctx.historical, Scalers(None, None), true);
    if historical.Err? {
      return Err(historical.error);
    }
    var current := d.PreProcess(ctx.current, false);
    if current.Err? {
      return Err(current.error);
    }
    assert Scalers(d.scaler, d.targetScaler) == fitted;
    assert historical == Outcome(ctx.historical, fitted) && current == Outcome(ctx.current, fitted);
    ValidSeries(ctx.historical, fitted);
    var p := Partition(historical.value.0, historical.value.1);
    if p.Err? {
      return Err(p.error);
    }
    assert Build(ctx) == Ok(Built(fitted, current.value.0, current.value.1, historical.value.0, historical.value.1, p.value));
    d.Store(current.value, historical.value, p.value);
    r := Ok(d);
  }

  /** `Dataset.__init__` as written: the current data is processed first,
      with `fit_scalers=False`, while both scalers are still unfitted. That
      call always raises, so construction ends there with its error and the
      historical processing and partitioning that follow are never reached.
      Before it, the diagnostic print reads the first current frame's shape,
      which raises IndexError when there is no current frame. */
  method NewDatasetAsWritten(ctx: Catchment) returns (r: Result<Dataset>)
    requires AllValid(ctx.historical) && AllValid(ctx.current)
    ensures r.Err?
    ensures |ctx.current| == 0 ==> r == Err(IndexOutOfRange)
    ensures |ctx.current| > 0 ==> r == Err(Outcome(ctx.current, Scalers(None, None)).error)
  {
    var d := new Dataset.Unfitted();
    if |ctx.current| == 0 {
      return Err(IndexOutOfRange);
    }
    var current := d.PreProcess(ctx.current, false);
    UnfittedScalersAlwaysFail(ctx.current);
    r := Err(current.error);
  }
}

=== FILE: features.dfy ===
/** Feature engineering on one covariate frame (`Dataset.add_engineered_features`):
    a day-of-year column, ten-day trailing sums of snowfall and rainfall and
    a ten-day trailing mean of temperature, computed over rows on the
    assumption of hourly sampling, then the warm-up rows dropped. */
module Features {
  import opened Common
  import opened Frames
  import Calendar

  /** The rolling window: 10 days of hourly rows. */
  const WindowRows: nat := 10 * 24

  const SnowColumn: string := "snow_1h"
  const RainColumn: string := "rain_1h"
  const TempColumn: string := "temp"
  const DayOfYearColumn: string := "day_of_year"
  const Snow10dColumn: string := "snow_10d"
  const Rain10dColumn: string := "rain_10d"
  const Temp10dColumn: string := "temp_10d"

  /** Leading rows of an n-row frame whose 240-row window is incomplete;
      pandas leaves NaN there and `dropna` removes those rows. */
  function WarmupRows(n: nat): nat
  {
    if n < WindowRows - 1 then n else WindowRows - 1
  }

  /** The trailing 240-row window ending at row k + 239 of `s`. */
  function WindowEndingAt(s: seq<real>, k: nat): seq<real>
    requires k + WindowRows <= |s|
  {
    s[k..k + WindowRows]
  }

  /** `rolling(window=240).sum()` on the rows that have a full window. */
  function TrailingSums(s: seq<real>): (r: seq<real>)
    ensures |r| == |s| - WarmupRows(|s|)
    ensures |s| >= WindowRows ==> |r| == |s| - WindowRows + 1
    ensures |s| < WindowRows ==> r == []
  {
    seq(|s| - WarmupRows(|s|), k requires 0 <= k < |s| - WarmupRows(|s|) => SumOf(WindowEndingAt(s, k)))
  }

  /** `rolling(window=240).mean()` on the rows that have a full window. */
  function TrailingMeans(s: seq<real>): (r: seq<real>)
    ensures |r| == |TrailingSums(s)|
    ensures forall k :: 0 <= k < |r| ==> r[k] == TrailingSums(s)[k] / WindowRows as real
  {
    seq(|s| - WarmupRows(|s|), k requires 0 <= k < |s| - WarmupRows(|s|) => SumOf(WindowEndingAt(s, k)) / WindowRows as real)
  }

  function DaysOfYear(index: seq<Hour>): (r: seq<real>)
    ensures |r| == |index|
  {
    seq(|index|, i requires 0 <= i < |index| => Calendar.DayOfYear(index[i]) as real)
  }

  /** The engineered frame. The rows without a full window are the only
      rows with NaN (the raw frame has none), so dropping them first and
      attaching the rolling columns to the remaining rows gives the same
      table as pandas' assign-then-`dropna`. A missing input column is
      pandas' KeyError, raised in the order snow, rain, temperature. */
  function AddEngineeredFeatures(df: Frame): (r: Result<Frame>)
    requires df.Valid()
    ensures r.Ok? <==> SnowColumn in df.names && RainColumn in df.names && TempColumn in df.names
    ensures SnowColumn !in df.names ==> r == Err(MissingColumn(SnowColumn))
    ensures SnowColumn in df.names && RainColumn !in df.names ==> r == Err(MissingColumn(RainColumn))
    ensures SnowColumn in df.names && RainColumn in df.names && TempColumn !in df.names ==>
      r == Err(MissingColumn(TempColumn))
    ensures r.Ok? ==> r.value.Valid() && r.value.index == df.index[WarmupRows(df.Len())..]
    ensures r.Ok? ==> r.value.Len() == if df.Len() >= WindowRows then df.Len() - (WindowRows - 1) else 0
  {
    if SnowColumn !in df.names then Err(MissingColumn(SnowColumn))
    else if RainColumn !in df.names then Err(MissingColumn(RainColumn))
    else if TempColumn !in df.names then Err(MissingColumn(TempColumn))
    else FeatureListWellFormed(df); Ok(AssignFeatures(df, EngineeredFeatures))
  }

  /** How an engineered column is computed from the input frame. */
  datatype Feature = DayOfYear | RollingSum(source: string) | RollingMean(source: string)

  /** The engineered columns, in the order `add_engineered_features`
      assigns them. */
  const EngineeredFeatures: seq<(string, Feature)> := [
    (DayOfYearColumn, DayOfYear),
    (Snow10dColumn, RollingSum(SnowColumn)),
    (Rain10dColumn, RollingSum(RainColumn)),
    (Temp10dColumn, RollingMean(TempColumn))]

  ghost predicate SourcesPresent(df: Frame, features: seq<(string, Feature)>)
  {
    forall k :: 0 <= k < |features| ==> !features[k].1.DayOfYear? ==> features[k].1.source in df.names
  }

  /** The values of one engineered column on the rows that are kept. */
  function FeatureValues(df: Frame, feature: Feature): (r: seq<real>)
    requires df.Valid() && (!feature.DayOfYear? ==> feature.source in df.names)
    ensures |r| == df.Len() - WarmupRows(df.Len())
  {
    match feature
    case DayOfYear => DaysOfYear(df.index[WarmupRows(df.Len())..])
    case RollingSum(source) => ColumnLength(df, source); TrailingSums(Col(df, source).value)
    case RollingMean(source) => ColumnLength(df, source); TrailingMeans(Col(df, source).value)
  }

  /** The rows after the warm-up with `df[name] = values` done for each
      feature in turn; the last feature's assignment is the outermost. */
  function AssignFeatures(df: Frame, features: seq<(string, Feature)>): (r: Frame)
    requires df.Valid() && SourcesPresent(df, features)
    ensures r.Valid() && r.index == df.index[WarmupRows(df.Len())..]
    decreases |features|
  {
    if |features| == 0 then df.Slice(WarmupRows(df.Len()), df.Len())
    else
      var (name, feature) := features[|features| - 1];
      SetColumn(AssignFeatures(df, features[..|features| - 1]), name, FeatureValues(df, feature))
  }

  lemma ColumnLength(df: Frame, name: string)
    requires df.Valid() && name in df.names
    ensures Col(df, name).Some? && |Col(df, name).value| == df.Len()
  {
  }

  ghost predicate DistinctNames(features: seq<(string, Feature)>)
  {
    forall i, j :: 0 <= i < j < |features| ==> features[i].0 != features[j].0
  }

  /** A column that no feature names is the input column without its
      warm-up rows. */
  lemma {:induction false} UntouchedColumn(df: Frame, features: seq<(string, Feature)>, name: string)
    requires df.Valid() && SourcesPresent(df, features)
    requires forall k :: 0 <= k < |features| ==> features[k].0 != name
    ensures Col(AssignFeatures(df, features), name) == Col(df.Slice(WarmupRows(df.Len()), df.Len()), name)
    decreases |features|
  {
    if |features| > 0 {
      var (n, feature) := features[|features| - 1];
      var prefix := features[..|features| - 1];
      UntouchedColumn(df, prefix, name);
      ColAfterSet(AssignFeatures(df, prefix), n, FeatureValues(df, feature), name);
    }
  }

  /** With distinct names, each feature's column holds that feature's values. */
  lemma {:induction false} AssignedColumn(df: Frame, features: seq<(string, Feature)>, k: nat)
    requires df.Valid() && SourcesPresent(df, features) && DistinctNames(features) && k < |features|
    ensures Col(AssignFeatures(df, features), features[k].0) == Some(FeatureValues(df, features[k].1))
    decreases |features|
  {
    var (n, feature) := features[|features| - 1];
    var prefix := features[..|features| - 1];
    ColAfterSet(AssignFeatures(df, prefix), n, FeatureValues(df, feature), features[k].0);
    if k < |features| - 1 {
      assert prefix[k] == features[k];
      AssignedColumn(df, prefix, k);
    }
  }

  /** The engineered columns: each rolling feature at output row k is the
      sum (mean, for temperature) of the 240 input rows ending at input row
      k + 239, and the day of year is read from the row's own timestamp. */
  lemma EngineeredColumns(df: Frame)
    requires df.Valid() && AddEngineeredFeatures(df).Ok?
    ensures var r := AddEngineeredFeatures(df).value;
      && Col(r, Snow10dColumn) == Some(TrailingSums(Col(df, SnowColumn).value))
      && Col(r, Rain10dColumn) == Some(TrailingSums(Col(df, RainColumn).value))
      && Col(r, Temp10dColumn) == Some(TrailingMeans(Col(df, TempColumn).value))
      && Col(r, DayOfYearColumn) == Some(DaysOfYear(r.index))
  {
    var fs := EngineeredFeatures;
    FeatureListWellFormed(df);
    AssignedColumn(df, fs, 0);
    AssignedColumn(df, fs, 1);
    AssignedColumn(df, fs, 2);
    AssignedColumn(df, fs, 3);
  }

  /** Every other column of the engineered frame is the input column
      without its warm-up rows. */
  lemma KeptColumns(df: Frame, name: string)
    requires df.Valid() && AddEngineeredFeatures(df).Ok?
    requires name !in {DayOfYearColumn, Snow10dColumn, Rain10dColumn, Temp10dColumn}
    ensures Col(AddEngineeredFeatures(df).value, name) == SliceColumn(Col(df, name), WarmupRows(df.Len()))
  {
    FeatureListWellFormed(df);
    UntouchedColumn(df, EngineeredFeatures, name);
    ColOfSlice(df, WarmupRows(df.Len()), df.Len(), name);
  }

  lemma FeatureListWellFormed(df: Frame)
    requires SnowColumn in df.names && RainColumn in df.names && TempColumn in df.names
    ensures SourcesPresent(df, EngineeredFeatures) && DistinctNames(EngineeredFeatures)
  {
  }

  function SliceColumn(c: Option<seq<real>>, from: nat): Option<seq<real>>
  {
    match c
    case None => None
    case Some(s) => if from <= |s| then Some(s[from..]) else None
  }

  lemma ColOfSlice(f: Frame, a: nat, b: nat, name: string)
    requires f.Valid() && a <= b == f.Len()
    ensures Col(f.Slice(a, b), name) == SliceColumn(Col(f, name), a)
  {
    match IndexOfName(f.names, name)
    case None =>
    case Some(j) =>
      assert |f.cols[j]| == b;
      assert f.Slice(a, b).cols[j] == f.cols[j][a..];
  }

  /** Sliding the window one row forward adds the row that enters and
      subtracts the row that leaves. */
  lemma TrailingSumSlides(s: seq<real>, k: nat)
    requires k + 1 < |TrailingSums(s)|
    ensures TrailingSums(s)[k + 1] == TrailingSums(s)[k] - s[k] + s[k + WindowRows]
  {
    var middle := s[k + 1..k + WindowRows];
    assert WindowEndingAt(s, k) == [s[k]] + middle;
    assert WindowEndingAt(s, k + 1) == middle + [s[k + WindowRows]];
    assert SumOf(WindowEndingAt(s, k)) == s[k] + SumOf(middle) by {
      assert WindowEndingAt(s, k)[1..] == middle;
    }
    SumOfConcat(middle, [s[k + WindowRows]]);
    assert SumOf([s[k + WindowRows]]) == s[k + WindowRows];
  }

  /** The ten-day mean temperature lies between the coldest and the warmest
      reading of its window. */
  lemma TrailingMeanWithinWindow(s: seq<real>, k: nat)
    requires k < |TrailingMeans(s)|
    ensures MinOf(WindowEndingAt(s, k)) <= TrailingMeans(s)[k] <= MaxOf(WindowEndingAt(s, k))
  {
    var w := WindowEndingAt(s, k);
    MeanBounds(w, MinOf(w), MaxOf(w));
  }

  /** On an hourly index without gaps, each kept row's window covers exactly
      the 240 hours ending at that row's timestamp: ten days. */
  lemma WindowCoversTenDays(df: Frame, k: nat)
    requires df.Valid() && Hourly(df.index) && AddEngineeredFeatures(df).Ok?
    requires k < AddEngineeredFeatures(df).value.Len()
    ensures k + WindowRows <= df.Len()
    ensures var t, window := AddEngineeredFeatures(df).value.index[k], df.index[k..k + WindowRows];
      forall h :: 0 <= h < WindowRows ==> window[h] == t - (WindowRows - 1) + h
  {
    var r := AddEngineeredFeatures(df).value;
    assert r.index == df.index[WindowRows - 1..] && k + WindowRows <= df.Len();
    var t, window := r.index[k], df.index[k..k + WindowRows];
    assert t == df.index[k + WindowRows - 1] == df.index[0] + k + WindowRows - 1;
    forall h | 0 <= h < WindowRows
      ensures window[h] == t - (WindowRows - 1) + h
    {
      assert window[h] == df.index[k + h] == df.index[0] + k + h;
    }
  }

  /** A frame of 500 hourly rows keeps 261 rows. */
  lemma FiveHundredRowsKeep261(df: Frame)
    requires df.Valid() && df.Len() == 500 && AddEngineeredFeatures(df).Ok?
    ensures AddEngineeredFeatures(df).value.Len() == 261
  {
  }
}

=== FILE: forecaster.dfy ===
/** The ensemble forecaster (`forecasting/forecaster.py`): one model per
    covariate variant, built afresh or loaded from checkpoints, each fitted
    and queried on its own variant; the members' inverse-scaled outputs are
    joined into a `min` / `mean` / `max` band. The neural models themselves
    are opaque: training and prediction calls appear as the calls issued or
    as function parameters. */
module Ensemble {
  import opened Common
  import opened Frames
  import opened Scaling
  import DatasetPipeline
  import Prediction

  /** The quantiles a stochastic member contributes. */
  const LowQuantile: real := 0.05
  const MidQuantile: real := 0.5
  const HighQuantile: real := 0.95

  /** One member's prediction of the single target column on the shared
      time index: a deterministic series, or the LowQuantile, MidQuantile
      and HighQuantile series of a stochastic one. */
  datatype Output =
    | Deterministic(values: seq<real>)
    | Stochastic(low: seq<real>, mid: seq<real>, high: seq<real>)
  {
    /** What the member adds to the `min`, `mid` and `max` lists: a
        deterministic member adds its one series to each. */
    function Low(): seq<real> { if Deterministic? then values else low }
    function Mid(): seq<real> { if Deterministic? then values else mid }
    function High(): seq<real> { if Deterministic? then values else high }

    /** Quantile series never cross. */
    ghost predicate Ordered()
    {
      Stochastic? ==> |low| == |mid| == |high| && forall i :: 0 <= i < |mid| ==> low[i] <= mid[i] <= high[i]
    }
  }

  /** The joined frame: its `min`, `mean` and `max` columns. */
  datatype Band = Band(min: seq<real>, mean: seq<real>, max: seq<real>)

  predicate AllOfLength(ss: seq<seq<real>>, n: nat)
  {
    forall k :: 0 <= k < |ss| ==> |ss[k]| == n
  }

  /** Row i across a list of series (one column of `pd.concat(..., axis=1)`). */
  function Across(ss: seq<seq<real>>, i: nat): (row: seq<real>)
    requires forall k :: 0 <= k < |ss| ==> i < |ss[k]|
    ensures |row| == |ss| && forall k :: 0 <= k < |ss| ==> row[k] == ss[k][i]
  {
    seq(|ss|, k requires 0 <= k < |ss| => ss[k][i])
  }

  /** Row-wise minimum of equally long series: below each of them, and
      equal to one of them. */
  function RowMins(ss: seq<seq<real>>, n: nat): (r: seq<real>)
    requires |ss| > 0 && AllOfLength(ss, n)
    ensures |r| == n
    ensures forall i, k :: 0 <= i < n && 0 <= k < |ss| ==> r[i] <= ss[k][i]
    ensures forall i :: 0 <= i < n ==> r[i] in Across(ss, i)
  {
    seq(n, i requires 0 <= i < n => MinOf(Across(ss, i)))
  }

  /** Row-wise maximum of equally long series: above each of them, and
      equal to one of them. */
  function RowMaxs(ss: seq<seq<real>>, n: nat): (r: seq<real>)
    requires |ss| > 0 && AllOfLength(ss, n)
    ensures |r| == n
    ensures forall i, k :: 0 <= i < n && 0 <= k < |ss| ==> ss[k][i] <= r[i]
    ensures forall i :: 0 <= i < n ==> r[i] in Across(ss, i)
  {
    seq(n, i requires 0 <= i < n => MaxOf(Across(ss, i)))
  }

  /** Row-wise mean of equally long series: times their count, the row sum. */
  function RowMeans(ss: seq<seq<real>>, n: nat): (r: seq<real>)
    requires |ss| > 0 && AllOfLength(ss, n)
    ensures |r| == n
    ensures forall i :: 0 <= i < n ==> r[i] * |ss| as real == SumOf(Across(ss, i))
  {
    seq(n, i requires 0 <= i < n => SumOf(Across(ss, i)) / |ss| as real)
  }

  /** `_join_preds`: the row-wise minimum of the `mins` list, mean of the
      `mids` list and maximum of the `maxs` list. Concatenating an empty
      list raises; series of different lengths do not share one index. */
  function JoinPreds(mins: seq<seq<real>>, mids: seq<seq<real>>, maxs: seq<seq<real>>): (r: Result<Band>)
    ensures |mins| == 0 || |mids| == 0 || |maxs| == 0 ==> r == Err(NoMembers)
    ensures r.Ok? <==> (|mins| > 0 && |mids| > 0 && |maxs| > 0
      && AllOfLength(mins, |mins[0]|) && AllOfLength(mids, |mins[0]|) && AllOfLength(maxs, |mins[0]|))
    ensures r.Ok? ==> var n := |mins[0]|;
      && |r.value.min| == n && |r.value.mean| == n && |r.value.max| == n
      && (forall i, k :: 0 <= i < n && 0 <= k < |mins| ==> r.value.min[i] <= mins[k][i])
      && (forall i :: 0 <= i < n ==> r.value.min[i] in Across(mins, i))
      && (forall i, k :: 0 <= i < n && 0 <= k < |maxs| ==> maxs[k][i] <= r.value.max[i])
      && (forall i :: 0 <= i < n ==> r.value.max[i] in Across(maxs, i))
      && (forall i :: 0 <= i < n ==> r.value.mean[i] * |mids| as real == SumOf(Across(mids, i)))
  {
    if |mins| == 0 || |mids| == 0 || |maxs| == 0 then Err(NoMembers)
    else
      var n := |mins[0]|;
      if !(AllOfLength(mins, n) && AllOfLength(mids, n) && AllOfLength(maxs, n)) then Err(MisalignedOutputs)
      else
        var lo, mean, hi := RowMins(mins, n), RowMeans(mids, n), RowMaxs(maxs, n);
        Ok(Band(lo, mean, hi))
  }

  function Lows(os: seq<Output>): (r: seq<seq<real>>)
    ensures |r| == |os| && forall k :: 0 <= k < |os| ==> r[k] == os[k].Low()
  {
    seq(|os|, k requires 0 <= k < |os| => os[k].Low())
  }

  function Mids(os: seq<Output>): (r: seq<seq<real>>)
    ensures |r| == |os| && forall k :: 0 <= k < |os| ==> r[k] == os[k].Mid()
  {
    seq(|os|, k requires 0 <= k < |os| => os[k].Mid())
  }

  function Highs(os: seq<Output>): (r: seq<seq<real>>)
    ensures |r| == |os| && forall k :: 0 <= k < |os| ==> r[k] == os[k].High()
  {
    seq(|os|, k requires 0 <= k < |os| => os[k].High())
  }

  /** The band the forecast loops evidently intend: every member adds to
      all three lists, a deterministic member its one series three times. */
  function Aggregate(os: seq<Output>): (r: Result<Band>)
    ensures |os| == 0 ==> r == Err(NoMembers)
    ensures r.Ok? ==> |r.value.min| == |r.value.mean| == |r.value.max| == |os[0].Mid()|
    ensures r.Ok? ==> forall k :: 0 <= k < |os| ==> |os[k].Low()| == |os[k].Mid()| == |os[k].High()| == |os[0].Mid()|
  {
    JoinPreds(Lows(os), Mids(os), Highs(os))
  }

  /** With quantiles that never cross, the band is ordered at every row:
      min <= mean <= max. */
  lemma EnvelopeOrdered(os: seq<Output>)
    requires forall k :: 0 <= k < |os| ==> os[k].Ordered()
    requires Aggregate(os).Ok?
    ensures var b := Aggregate(os).value;
      forall i :: 0 <= i < |b.mean| ==> b.min[i] <= b.mean[i] <= b.max[i]
  {
    var lows, mids, highs := Lows(os), Mids(os), Highs(os);
    var b := Aggregate(os).value;
    forall i | 0 <= i < |b.mean|
      ensures b.min[i] <= b.mean[i] <= b.max[i]
    {
      var row := Across(mids, i);
      forall k | 0 <= k < |row|
        ensures b.min[i] <= row[k] <= b.max[i]
      {
        assert b.min[i] <= lows[k][i] && highs[k][i] <= b.max[i];
        assert os[k].Ordered();
      }
      MeanBounds(row, b.min[i], b.max[i]);
      assert b.mean[i] == SumOf(row) / |row| as real;
    }
  }

  /** A one-member ensemble reproduces that member's series. */
  lemma SingleMember(o: Output)
    requires o.Ordered()
    ensures Aggregate([o]) == Ok(Band(o.Low(), o.Mid(), o.High()))
  {
    var lows, mids, highs := Lows([o]), Mids([o]), Highs([o]);
    assert lows == [o.Low()] && mids == [o.Mid()] && highs == [o.High()];
    assert Aggregate([o]).Ok?;
    var b := Aggregate([o]).value;
    forall i | 0 <= i < |b.min|
      ensures b.min[i] == o.Low()[i] && b.mean[i] == o.Mid()[i] && b.max[i] == o.High()[i]
    {
      assert Across(lows, i) == [o.Low()[i]];
      assert Across(highs, i) == [o.High()[i]];
      assert Across(mids, i) == [o.Mid()[i]];
      assert SumOf([o.Mid()[i]]) == o.Mid()[i] + SumOf([]);
    }
    assert |b.min| == |o.Low()| == |o.Mid()| == |o.High()|;
    assert b.min == o.Low() && b.mean == o.Mid() && b.max == o.High();
  }

  /** The join of lists of one-row series. */
  lemma JoinOneRow(mins: seq<seq<real>>, mids: seq<seq<real>>, maxs: seq<seq<real>>)
    requires |mins| > 0 && |mids| > 0 && |maxs| > 0
    requires AllOfLength(mins, 1) && AllOfLength(mids, 1) && AllOfLength(maxs, 1)
    ensures JoinPreds(mins, mids, maxs) ==
      Ok(Band([MinOf(Across(mins, 0))], [SumOf(Across(mids, 0)) / |mids| as real], [MaxOf(Across(maxs, 0))]))
  {
    var lo, mean, hi := RowMins(mins, 1), RowMeans(mids, 1), RowMaxs(maxs, 1);
    assert lo == [lo[0]] && mean == [mean[0]] && hi == [hi[0]];
  }

  /** The row values of the two-member example. */
  lemma TwoMemberRow(a: real, b: real)
    ensures MinOf([a, b]) == Min(a, b) && MaxOf([a, b]) == Max(a, b)
    ensures SumOf([a, b]) / 2.0 == (a + b) / 2.0
  {
    assert MinOf([b]) == b && MaxOf([b]) == b;
    assert SumOf([b]) == b + SumOf([]);
  }

  /** The same ensemble with the intended join keeps the deterministic
      member's 10.0 in the max, and the band stays ordered. */
  lemma MixedEnsembleIntended()
    ensures Aggregate([Deterministic([10.0]), Stochastic([0.0], [1.0], [2.0])]) == Ok(Band([0.0], [5.5], [10.0]))
  {
    var os := [Deterministic([10.0]), Stochastic([0.0], [1.0], [2.0])];
    MixedEnsembleLists(os);
    MixedEnsembleJoin();
  }

  lemma MixedEnsembleJoin()
    ensures JoinPreds([[10.0], [0.0]], [[10.0], [1.0]], [[10.0], [2.0]]) == Ok(Band([0.0], [5.5], [10.0]))
  {
    JoinOneRow([[10.0], [0.0]], [[10.0], [1.0]], [[10.0], [2.0]]);
    MixedEnsembleRow();
  }

  lemma MixedEnsembleRow()
    ensures MinOf(Across([[10.0], [0.0]], 0)) == 0.0
    ensures SumOf(Across([[10.0], [1.0]], 0)) / 2.0 == 5.5
    ensures MaxOf(Across([[10.0], [2.0]], 0)) == 10.0
  {
    assert Across([[10.0], [0.0]], 0) == [10.0, 0.0];
    assert Across([[10.0], [1.0]], 0) == [10.0, 1.0];
    assert Across([[10.0], [2.0]], 0) == [10.0, 2.0];
    TwoMemberRow(10.0, 0.0);
    TwoMemberRow(10.0, 1.0);
    TwoMemberRow(10.0, 2.0);
  }

  lemma MixedEnsembleLists(os: seq<Output>)
    requires os == [Deterministic([10.0]), Stochastic([0.0], [1.0], [2.0])]
    ensures Lows(os) == [[10.0], [0.0]] && Mids(os) == [[10.0], [1.0]] && Highs(os) == [[10.0], [2.0]]
  {
    assert os[0].Low() == [10.0] && os[1].Low() == [0.0];
    assert os[0].High() == [10.0] && os[1].High() == [2.0];
  }

  /** Inverse-transform a member's output with the target scaler, fitted on
      the single target column. Inverse min-max scaling is increasing, so
      the quantiles of the inverse-transformed samples are the inverse
      transforms of the quantiles, which is what is applied here. */
  function UnscaleOutput(sc: Option<MinMax>, o: Output): (r: Result<Output>)
    ensures sc.None? ==> r == Err(ScalerNotFitted)
    ensures sc.Some? && |sc.value| != 1 ==> r == Err(WidthMismatch)
    ensures r.Ok? <==> sc.Some? && |sc.value| == 1
    ensures r.Ok? ==> r.value.Deterministic? == o.Deterministic?
    ensures r.Ok? ==> && r.value.Low() == UnscaleSeries(sc.value[0], o.Low())
                      && r.value.Mid() == UnscaleSeries(sc.value[0], o.Mid())
                      && r.value.High() == UnscaleSeries(sc.value[0], o.High())
  {
    match sc
    case None => Err(ScalerNotFitted)
    case Some(s) =>
      if |s| != 1 then Err(WidthMismatch)
      else match o
        case Deterministic(v) => Ok(Deterministic(UnscaleSeries(s[0], v)))
        case Stochastic(lo, mi, hi) => Ok(Stochastic(UnscaleSeries(s[0], lo), UnscaleSeries(s[0], mi), UnscaleSeries(s[0], hi)))
  }

  /** A member's output on the scaled target, as the model emits it. */
  function ScaleOutput(c: ColumnScaler, o: Output): (r: Output)
    ensures r.Deterministic? == o.Deterministic?
    ensures r.Low() == ScaleSeries(c, o.Low()) && r.Mid() == ScaleSeries(c, o.Mid()) && r.High() == ScaleSeries(c, o.High())
  {
    match o
    case Deterministic(v) => Deterministic(ScaleSeries(c, v))
    case Stochastic(lo, mi, hi) => Stochastic(ScaleSeries(c, lo), ScaleSeries(c, mi), ScaleSeries(c, hi))
  }

  /** Inverse scaling recovers an output given on the scaled target. */
  lemma OutputRoundTrip(c: ColumnScaler, o: Output)
    ensures UnscaleOutput(Some([c]), ScaleOutput(c, o)) == Ok(o)
  {
    SeriesRoundTrip(c, o.Low());
    SeriesRoundTrip(c, o.Mid());
    SeriesRoundTrip(c, o.High());
  }

  lemma UnscaleMonotone(c: ColumnScaler, a: real, b: real)
    requires c.lo <= c.hi && a <= b
    ensures c.Unscale(a) <= c.Unscale(b)
  {
    assert c.Unscale(b) - c.Unscale(a) == (b - a) * c.Range();
  }

  /** A fitted target scaler keeps the quantile series uncrossed. */
  lemma UnscalePreservesOrder(sc: Option<MinMax>, o: Output)
    requires sc.Some? && |sc.value| == 1 && sc.value[0].lo <= sc.value[0].hi
    requires o.Ordered()
    ensures UnscaleOutput(sc, o).Ok? && UnscaleOutput(sc, o).value.Ordered()
  {
    var c := sc.value[0];
    if o.Stochastic? {
      forall i | 0 <= i < |o.mid|
        ensures c.Unscale(o.low[i]) <= c.Unscale(o.mid[i]) <= c.Unscale(o.high[i])
      {
        UnscaleMonotone(c, o.low[i], o.mid[i]);
        UnscaleMonotone(c, o.mid[i], o.high[i]);
      }
    }
  }

  /** An ensemble member: the checkpoint name it is saved or loaded under,
      its working directory, and whether it was built or loaded. */
  datatype Origin = NewlyBuilt | FromCheckpoint
  datatype Model = Model(name: string, workDir: string, origin: Origin)

  /** The number of (model, covariate) pairs `zip` yields. */
  function Shortest(a: nat, b: nat): nat { if a <= b then a else b }

  /** The prediction of member i: an opaque call on its model, the shared
      target series and its own covariate variant, inverse-scaled. */
  function MemberSteps(models: seq<Model>, covs: seq<Frame>, y: Frame, sc: Option<MinMax>,
                       call: (Model, Frame, Frame) -> Output): (steps: seq<Result<Output>>)
    ensures |steps| == Shortest(|models|, |covs|)
    ensures forall i :: 0 <= i < |steps| ==> steps[i] == UnscaleOutput(sc, call(models[i], y, covs[i]))
  {
    seq(Shortest(|models|, |covs|), i requires 0 <= i < Shortest(|models|, |covs|) => UnscaleOutput(sc, call(models[i], y, covs[i])))
  }

  /** The intended forecast band of the whole ensemble. */
  function EnsembleForecast(models: seq<Model>, covs: seq<Frame>, y: Frame, sc: Option<MinMax>,
                            call: (Model, Frame, Frame) -> Output): (r: Result<Band>)
    ensures Shortest(|models|, |covs|) == 0 ==> r == Err(NoMembers)
    ensures Shortest(|models|, |covs|) > 0 && sc.None? ==> r == Err(ScalerNotFitted)
  {
    CollectFirstError(MemberSteps(models, covs, y, sc, call));
    match Collect(MemberSteps(models, covs, y, sc, call))
    case Err(e) => Err(e)
    case Ok(os) => Aggregate(os)
  }

  /** One iteration of the source's loops: the member's inverse-scaled
      output, after which a deterministic output, a darts series that is
      added to the `mid` list as it is, makes the join's `pd.concat` raise. */
  function AsWrittenStep(step: Result<Output>): (r: Result<Output>)
    ensures r.Ok? <==> step.Ok? && step.value.Stochastic?
    ensures r.Ok? ==> r == step
    ensures step.Err? ==> r == step
  {
    match step
    case Err(e) => Err(e)
    case Ok(o) => if o.Deterministic? then Err(SeriesNotConcatenable) else Ok(o)
  }

  function AsWrittenSteps(steps: seq<Result<Output>>): (r: seq<Result<Output>>)
    ensures |r| == |steps| && forall i :: 0 <= i < |steps| ==> r[i] == AsWrittenStep(steps[i])
  {
    seq(|steps|, i requires 0 <= i < |steps| => AsWrittenStep(steps[i]))
  }

  /** The forecast band as the source's loops compute it: the loop runs to
      the end only when every member is stochastic, and the join after the
      last member then covers every member's quantile series. An empty
      ensemble never binds the result. */
  function EnsembleForecastAsWritten(models: seq<Model>, covs: seq<Frame>, y: Frame, sc: Option<MinMax>,
                                     call: (Model, Frame, Frame) -> Output): Result<Band>
  {
    match Collect(AsWrittenSteps(MemberSteps(models, covs, y, sc, call)))
    case Err(e) => Err(e)
    case Ok(os) => Aggregate(os)
  }

  /** When every member is stochastic the loops as written give the
      intended band. */
  lemma StochasticEnsemblesAgree(models: seq<Model>, covs: seq<Frame>, y: Frame, sc: Option<MinMax>,
                                 call: (Model, Frame, Frame) -> Output)
    requires forall i :: 0 <= i < Shortest(|models|, |covs|) ==> call(models[i], y, covs[i]).Stochastic?
    ensures EnsembleForecastAsWritten(models, covs, y, sc, call) == EnsembleForecast(models, covs, y, sc, call)
  {
    var steps := MemberSteps(models, covs, y, sc, call);
    assert AsWrittenSteps(steps) == steps by {
      forall i | 0 <= i < |steps| ensures AsWrittenStep(steps[i]) == steps[i] {
        var o := call(models[i], y, covs[i]);
        assert o.Stochastic?;
      }
    }
  }

  /** With a fitted target scaler, any deterministic member makes the loops
      as written raise: the first such member's join fails. */
  lemma DeterministicMemberRaises(models: seq<Model>, covs: seq<Frame>, y: Frame, sc: Option<MinMax>,
                                  call: (Model, Frame, Frame) -> Output, k: nat)
    requires sc.Some? && |sc.value| == 1
    requires k < Shortest(|models|, |covs|) && call(models[k], y, covs[k]).Deterministic?
    ensures EnsembleForecastAsWritten(models, covs, y, sc, call) == Err(SeriesNotConcatenable)
  {
    var rs := AsWrittenSteps(MemberSteps(models, covs, y, sc, call));
    assert rs[k].Err?;
    CollectFirstError(rs);
    var j :| 0 <= j < |rs| && rs[j] == Err(Collect(rs).error);
    assert UnscaleOutput(sc, call(models[j], y, covs[j])).Ok?;
  }

  /** The ensemble of one deterministic and one stochastic member: as
      written it raises, while the intended join gives a band. */
  lemma MixedEnsembleRaises(models: seq<Model>, covs: seq<Frame>, y: Frame, c: ColumnScaler,
                            call: (Model, Frame, Frame) -> Output)
    requires |models| == |covs| == 2
    requires call(models[0], y, covs[0]) == ScaleOutput(c, Deterministic([10.0]))
    requires call(models[1], y, covs[1]) == ScaleOutput(c, Stochastic([0.0], [1.0], [2.0]))
    ensures EnsembleForecastAsWritten(models, covs, y, Some([c]), call) == Err(SeriesNotConcatenable)
    ensures EnsembleForecast(models, covs, y, Some([c]), call) == Ok(Band([0.0], [5.5], [10.0]))
  {
    DeterministicMemberRaises(models, covs, y, Some([c]), call, 0);
    var steps := MemberSteps(models, covs, y, Some([c]), call);
    OutputRoundTrip(c, Deterministic([10.0]));
    OutputRoundTrip(c, Stochastic([0.0], [1.0], [2.0]));
    assert steps == [Ok(Deterministic([10.0])), Ok(Stochastic([0.0], [1.0], [2.0]))];
    assert steps[..0] == [] && steps[..2] == steps;
    var d, st := Deterministic([10.0]), Stochastic([0.0], [1.0], [2.0]);
    assert steps[0] == Ok(d) && steps[1] == Ok(st);
    CollectExtend(steps, 0, []);
    assert [] + [steps[0].value] == [d];
    CollectExtend(steps, 1, [d]);
    assert [d] + [steps[1].value] == [d, st];
    assert Collect(steps) == Ok([Deterministic([10.0]), Stochastic([0.0], [1.0], [2.0])]);
    MixedEnsembleIntended();
  }

  /** With a fitted target scaler and members whose quantiles never cross,
      the ensemble band is ordered at every row, and it is built from member
      i's output on covariate variant i. */
  lemma ForecastEnvelope(models: seq<Model>, covs: seq<Frame>, y: Frame, sc: Option<MinMax>,
                         call: (Model, Frame, Frame) -> Output)
    requires sc.Some? && |sc.value| == 1 && sc.value[0].lo <= sc.value[0].hi
    requires forall i :: 0 <= i < Shortest(|models|, |covs|) ==> call(models[i], y, covs[i]).Ordered()
    requires EnsembleForecast(models, covs, y, sc, call).Ok?
    ensures var os := Collect(MemberSteps(models, covs, y, sc, call)).value;
      && |os| == Shortest(|models|, |covs|)
      && (forall i :: 0 <= i < |os| ==> UnscaleOutput(sc, call(models[i], y, covs[i])) == Ok(os[i]))
      && EnsembleForecast(models, covs, y, sc, call) == Aggregate(os)
    ensures var b := EnsembleForecast(models, covs, y, sc, call).value;
      forall i :: 0 <= i < |b.mean| ==> b.min[i] <= b.mean[i] <= b.max[i]
  {
    var steps := MemberSteps(models, covs, y, sc, call);
    CollectOk(steps);
    var os := Collect(steps).value;
    forall k | 0 <= k < |os| ensures os[k].Ordered() {
      UnscalePreservesOrder(sc, call(models[k], y, covs[k]));
    }
    EnvelopeOrdered(os);
  }

  /** The lists after one more member. */
  lemma ListsExtend(os: seq<Output>, o: Output)
    ensures Lows(os + [o]) == Lows(os) + [o.Low()]
    ensures Mids(os + [o]) == Mids(os) + [o.Mid()]
    ensures Highs(os + [o]) == Highs(os) + [o.High()]
  {
    assert (os + [o])[..|os|] == os;
  }

  /** `historical_forecasts` / `forecast_for_hours` with the join moved
      after the loop: every member adds to all three lists. A member whose
      inverse transform raises stops the loop. */
  method ForecastEnsemble(models: seq<Model>, covs: seq<Frame>, y: Frame, sc: Option<MinMax>,
                          call: (Model, Frame, Frame) -> Output) returns (r: Result<Band>)
    ensures r == EnsembleForecast(models, covs, y, sc, call)
  {
    var steps := MemberSteps(models, covs, y, sc, call);
    var mins, mids, maxs := [], [], [];
    ghost var os: seq<Output> := [];
    for i := 0 to |steps|
      invariant Collect(steps[..i]) == Ok(os)
      invariant mins == Lows(os) && mids == Mids(os) && maxs == Highs(os)
    {
      var o := UnscaleOutput(sc, call(models[i], y, covs[i]));
      CollectExtend(steps, i, os);
      if o.Err? {
        return Err(o.error);
      }
      ListsExtend(os, o.value);
      mins, mids, maxs := mins + [o.value.Low()], mids + [o.value.Mid()], maxs + [o.value.High()];
      os := os + [o.value];
    }
    assert steps[..|steps|] == steps;
    r := JoinPreds(mins, mids, maxs);
  }

  /** `historical_forecasts` / `forecast_for_hours` as written: a
      stochastic member adds its low, mid and high series to the three
      lists and the join is recomputed; a deterministic member adds its
      series to the mid list, and the join then raises. */
  method ForecastEnsembleAsWritten(models: seq<Model>, covs: seq<Frame>, y: Frame, sc: Option<MinMax>,
                                   call: (Model, Frame, Frame) -> Output) returns (r: Result<Band>)
    ensures r == EnsembleForecastAsWritten(models, covs, y, sc, call)
  {
    var steps := MemberSteps(models, covs, y, sc, call);
    ghost var rs := AsWrittenSteps(steps);
    var mins, mids, maxs := [], [], [];
    ghost var os: seq<Output> := [];
    r := Err(NoMembers);
    for i := 0 to |steps|
      invariant Collect(rs[..i]) == Ok(os)
      invariant mins == Lows(os) && mids == Mids(os) && maxs == Highs(os)
      invariant r == Aggregate(os)
    {
      var o := UnscaleOutput(sc, call(models[i], y, covs[i]));
      CollectExtend(rs, i, os);
      if o.Err? {
        return Err(o.error);
      }
      match o.value
      case Stochastic(lo, mi, hi) =>
        ListsExtend(os, o.value);
        os := os + [o.value];
        mins, mids, maxs := mins + [lo], mids + [mi], maxs + [hi];
        r := JoinPreds(mins, mids, maxs);
      case Deterministic(v) =>
        mids := mids + [v];
        return Err(SeriesNotConcatenable);
    }
    assert rs[..|rs|] == rs;
  }

  /** `str(i)`: the decimal digits of i, the name member i is saved and
      loaded under. */
  function IndexName(i: nat): (s: string)
    ensures |s| >= 1 && (i < 10 <==> |s| == 1)
    ensures forall k :: 0 <= k < |s| ==> '0' <= s[k] <= '9'
  {
    if i < 10 then [DigitChar(i)] else IndexName(i / 10) + [DigitChar(i % 10)]
  }

  function DigitChar(d: nat): (c: char)
    requires d < 10
    ensures '0' <= c <= '9'
  {
    ('0' as int + d) as char
  }

  /** Distinct members have distinct checkpoint names, so no member
      overwrites or loads another's checkpoint. */
  lemma {:induction false} IndexNamesDistinct(i: nat, j: nat)
    requires i != j
    ensures IndexName(i) != IndexName(j)
  {
    if i >= 10 && j >= 10 {
      var a, b := IndexName(i), IndexName(j);
      assert a[..|a| - 1] == IndexName(i / 10) && a[|a| - 1] == DigitChar(i % 10);
      assert b[..|b| - 1] == IndexName(j / 10) && b[|b| - 1] == DigitChar(j % 10);
      if i / 10 != j / 10 {
        IndexNamesDistinct(i / 10, j / 10);
      }
    }
  }

  lemma IndexNameExamples()
    ensures IndexName(0) == "0" && IndexName(7) == "7" && IndexName(12) == "12"
  {
    assert IndexName(12) == IndexName(1) + [DigitChar(2)];
  }

  /** `os.path.join(parent_dir, name, model_save_dir)`. */
  function ModelSaveDir(parentDir: string, catchment: string, saveDir: string): (dir: string)
    ensures |dir| == |parentDir| + |catchment| + |saveDir| + 2
    ensures dir[..|parentDir| + 1] == parentDir + "/"
    ensures dir[|parentDir| + 1..|parentDir| + 1 + |catchment|] == catchment
    ensures dir[|dir| - |saveDir| - 1..] == "/" + saveDir
  {
    parentDir + "/" + catchment + "/" + saveDir
  }

  /** n members, member i named `str(i)`, all in one working directory. */
  function Members(n: nat, workDir: string, origin: Origin): (ms: seq<Model>)
    ensures |ms| == n
    ensures forall i :: 0 <= i < n ==> ms[i].name == IndexName(i) && ms[i].workDir == workDir && ms[i].origin == origin
  {
    seq(n, i requires 0 <= i < n => Model(IndexName(i), workDir, origin))
  }

  /** No two members share a checkpoint name. */
  lemma MemberNamesDistinct(n: nat, workDir: string, origin: Origin)
    ensures forall i, j :: 0 <= i < j < n ==> Members(n, workDir, origin)[i].name != Members(n, workDir, origin)[j].name
  {
    forall i, j | 0 <= i < j < n
      ensures Members(n, workDir, origin)[i].name != Members(n, workDir, origin)[j].name
    {
      IndexNamesDistinct(i, j);
    }
  }

  /** `_build_new_models`: one fresh model per covariate variant, in index
      order. */
  method BuildNewModels(n: nat, workDir: string) returns (models: seq<Model>)
    ensures models == Members(n, workDir, NewlyBuilt)
  {
    models := [];
    for i := 0 to n
      invariant models == Members(i, workDir, NewlyBuilt)
    {
      models := models + [Model(IndexName(i), workDir, NewlyBuilt)];
    }
  }

  /** `_load_existing_models`: load member i from checkpoint `str(i)`, in
      index order; a missing checkpoint raises for that member. The names
      that have a checkpoint in the working directory are the parameter
      `checkpoints`. */
  method LoadExistingModels(n: nat, workDir: string, checkpoints: set<string>) returns (r: Result<seq<Model>>)
    ensures r.Ok? <==> forall i :: 0 <= i < n ==> IndexName(i) in checkpoints
    ensures r.Ok? ==> r.value == Members(n, workDir, FromCheckpoint)
    ensures r.Err? ==> exists k :: (0 <= k < n && r.error == ModelLoadError(k) && IndexName(k) !in checkpoints
      && forall i :: 0 <= i < k ==> IndexName(i) in checkpoints)
  {
    var models := [];
    for i := 0 to n
      invariant models == Members(i, workDir, FromCheckpoint)
      invariant forall j :: 0 <= j < i ==> IndexName(j) in checkpoints
    {
      if IndexName(i) !in checkpoints {
        assert IndexName(i) !in checkpoints;
        return Err(ModelLoadError(i));
      }
      models := models + [Model(IndexName(i), workDir, FromCheckpoint)];
    }
    r := Ok(models);
  }

  /** The choice the constructor makes: build afresh when asked to
      overwrite or when there is no checkpoint directory, load otherwise. */
  method ChooseModels(overwrite: bool, checkpointDirExists: bool, n: nat, workDir: string, checkpoints: set<string>)
    returns (r: Result<seq<Model>>)
    ensures overwrite || !checkpointDirExists ==> r == Ok(Members(n, workDir, NewlyBuilt))
    ensures !overwrite && checkpointDirExists ==>
      && (r.Ok? <==> forall i :: 0 <= i < n ==> IndexName(i) in checkpoints)
      && (r.Ok? ==> r.value == Members(n, workDir, FromCheckpoint))
  {
    if overwrite || !checkpointDirExists {
      var models := BuildNewModels(n, workDir);
      r := Ok(models);
    } else {
      r := LoadExistingModels(n, workDir, checkpoints);
    }
  }

  /** The arguments of one `model.fit` call. */
  datatype FitCall = FitCall(model: Model, series: Frame, pastCovariates: Frame, valSeries: Frame, valPastCovariates: Frame)

  /** `target_scaler.inverse_transform` on one series. */
  function InverseScaleWith(sc: Option<MinMax>, f: Frame): (r: Result<Frame>)
    requires f.Valid()
    ensures sc.None? ==> r == Err(ScalerNotFitted)
    ensures sc.Some? && |sc.value| != f.Width() ==> r == Err(WidthMismatch)
    ensures r.Ok? <==> sc.Some? && |sc.value| == f.Width()
    ensures r.Ok? ==> r.value == InverseTransform(sc.value, f)
  {
    match sc
    case None => Err(ScalerNotFitted)
    case Some(s) => if |s| != f.Width() then Err(WidthMismatch) else Ok(InverseTransform(s, f))
  }

  /** Inverse scaling undoes the scaling the pipeline applied. */
  lemma InverseScaleUndoesScaling(sc: Option<MinMax>, f: Frame)
    requires f.Valid() && DatasetPipeline.ScaleWith(sc, f).Ok?
    ensures InverseScaleWith(sc, DatasetPipeline.ScaleWith(sc, f).value) == Ok(f)
  {
    TransformRoundTrip(sc.value, f);
  }

  /** The level `forecast_for` returns for hour `t`, on the values it reads:
      the live covariates and input shape of the prediction set and the
      dataset's target scaler. `predict` stands for the model call together
      with the batch axis added before it and the `[0][0]` unwrapping after
      it: it takes the window and returns the single scaled level. */
  function LevelAt(x: Frame, shape: seq<nat>, sc: Option<MinMax>, predict: Prediction.Tensor -> real, t: Hour): (r: Result<real>)
    requires x.Valid()
    ensures Prediction.Window(x, shape, t, Prediction.DefaultWindowHours).Err? ==>
      r == Err(Prediction.Window(x, shape, t, Prediction.DefaultWindowHours).error)
    ensures r.Ok? <==> (Prediction.Window(x, shape, t, Prediction.DefaultWindowHours).Ok? && sc.Some? && |sc.value| == 1)
    ensures r.Ok? ==> sc.value[0].Scale(r.value) == predict(Prediction.Window(x, shape, t, Prediction.DefaultWindowHours).value)
  {
    match Prediction.Window(x, shape, t, Prediction.DefaultWindowHours)
    case Err(e) => Err(e)
    case Ok(xin) =>
      match sc
      case None => Err(ScalerNotFitted)
      case Some(sc) =>
        if |sc| != 1 then Err(WidthMismatch)
        else
          ScaleRoundTrip(sc[0], predict(xin));
          Ok(sc[0].Unscale(predict(xin)))
  }

  /** One hour's forecast paired with its hour, as `forecast_for_range`
      records it; a failing forecast stays an error. */
  function Stamped(t: Hour, level: Result<real>): Result<(Hour, real)>
  {
    match level
    case Err(e) => Err(e)
    case Ok(v) => Ok((t, v))
  }

  /** The outcomes of a run of consecutive hours from `start`, each paired
      with its hour. */
  function StampAll(levels: seq<Result<real>>, start: Hour): (r: seq<Result<(Hour, real)>>)
    ensures |r| == |levels|
    ensures forall k :: 0 <= k < |r| ==> r[k] == Stamped(start + k, levels[k])
  {
    seq(|levels|, k requires 0 <= k < |levels| => Stamped(start + k, levels[k]))
  }

  /** Recording hourly forecasts until the first failure gives every hour
      paired with its level when no hour fails, and otherwise the first
      failing hour's error. */
  lemma StampedCollect(levels: seq<Result<real>>, start: Hour)
    ensures var c := Collect(StampAll(levels, start));
      && (c.Ok? <==> forall k :: 0 <= k < |levels| ==> levels[k].Ok?)
      && (c.Ok? ==> |c.value| == |levels| && forall k :: 0 <= k < |levels| ==> c.value[k] == (start + k, levels[k].value))
      && (c.Err? ==> exists k :: 0 <= k < |levels| && levels[k] == Err(c.error) && forall j :: 0 <= j < k ==> levels[j].Ok?)
  {
    var steps := StampAll(levels, start);
    CollectFirstError(steps);
    if Collect(steps).Ok? {
      CollectOk(steps);
    }
  }

  /** The levels `forecast_for` gives for the hours start <= t < end, in
      increasing order. */
  function HourlyLevels(x: Frame, shape: seq<nat>, sc: Option<MinMax>, predict: Prediction.Tensor -> real,
                        start: Hour, end: Hour): (r: seq<Result<real>>)
    requires x.Valid()
    ensures |r| == (if start < end then end - start else 0)
    ensures forall k :: 0 <= k < |r| ==> r[k] == LevelAt(x, shape, sc, predict, start + k)
  {
    var n := if start < end then end - start else 0;
    seq(n, k requires 0 <= k < n => LevelAt(x, shape, sc, predict, start + k))
  }

  /** What `forecast_for_range` records: each hour with its level, until
      the first hour whose forecast raises. */
  function RangeRecords(x: Frame, shape: seq<nat>, sc: Option<MinMax>, predict: Prediction.Tensor -> real,
                        start: Hour, end: Hour): Result<seq<(Hour, real)>>
    requires x.Valid()
  {
    Collect(StampAll(HourlyLevels(x, shape, sc, predict, start, end), start))
  }

  /** The records are one per hour start <= t < end, in increasing order,
      each holding that hour's level, exactly when no hour fails; otherwise
      the error is the first failing hour's. */
  lemma RangeRecordsSpec(x: Frame, shape: seq<nat>, sc: Option<MinMax>, predict: Prediction.Tensor -> real,
                         start: Hour, end: Hour)
    requires x.Valid()
    ensures var r := RangeRecords(x, shape, sc, predict, start, end);
      && (r.Ok? <==> forall t :: start <= t < end ==> LevelAt(x, shape, sc, predict, t).Ok?)
      && (r.Ok? ==> |r.value| == (if start < end then end - start else 0))
      && (r.Ok? ==> forall k :: 0 <= k < |r.value| ==>
            r.value[k] == (start + k, LevelAt(x, shape, sc, predict, start + k).value))
      && (r.Err? ==> exists t :: (start <= t < end && LevelAt(x, shape, sc, predict, t) == Err(r.error)
            && forall u :: start <= u < t ==> LevelAt(x, shape, sc, predict, u).Ok?))
  {
    var levels := HourlyLevels(x, shape, sc, predict, start, end);
    var r := RangeRecords(x, shape, sc, predict, start, end);
    StampedCollect(levels, start);
    if r.Ok? {
      forall t | start <= t < end ensures LevelAt(x, shape, sc, predict, t).Ok? {
        assert levels[t - start].Ok?;
      }
    } else {
      var k :| 0 <= k < |levels| && levels[k] == Err(r.error) && forall j :: 0 <= j < k ==> levels[j].Ok?;
      forall u | start <= u < start + k ensures LevelAt(x, shape, sc, predict, u).Ok? {
        assert levels[u - start].Ok?;
      }
      assert LevelAt(x, shape, sc, predict, start + k) == Err(r.error);
    }
  }

  /** The forecaster of one catchment: its name, its dataset, the directory
      its models are saved in and the ensemble members, one per covariate
      variant. */
  class Forecaster {
    const name: string
    const dataset: DatasetPipeline.Dataset
    const modelSaveDir: string
    const models: seq<Model>

    constructor Init(name: string, dataset: DatasetPipeline.Dataset, modelSaveDir: string, models: seq<Model>)
      ensures this.name == name && this.dataset == dataset && this.modelSaveDir == modelSaveDir && this.models == models
    {
      this.name, this.dataset, this.modelSaveDir, this.models := name, dataset, modelSaveDir, models;
    }

    /** `fit`: model i is trained on covariate variant i, with the shared
        target for training and validation; `zip` stops at the shortest of
        the three lists. The training itself is opaque, so the result is
        the list of calls issued, in order. */
    method Fit() returns (calls: seq<FitCall>)
      ensures |calls| == Shortest(|models|, Shortest(|dataset.xTrains|, |dataset.xValidations|))
      ensures forall i :: 0 <= i < |calls| ==>
        calls[i] == FitCall(models[i], dataset.yTrain, dataset.xTrains[i], dataset.yValidation, dataset.xValidations[i])
    {
      var xTrains, xValidations := dataset.xTrains, dataset.xValidations;
      var yTrain, yValidation := dataset.yTrain, dataset.yValidation;
      var n := Shortest(|models|, Shortest(|xTrains|, |xValidations|));
      calls := [];
      for i := 0 to n
        invariant |calls| == i
        invariant forall k :: 0 <= k < i ==> calls[k] == FitCall(models[k], yTrain, xTrains[k], yValidation, xValidations[k])
      {
        calls := calls + [FitCall(models[i], yTrain, xTrains[i], yValidation, xValidations[i])];
      }
    }

    /** `historical_forecasts`: every member backtested on the test target
        with its own test covariates, joined into one band. */
    method HistoricalForecasts(backtest: (Model, Frame, Frame) -> Output) returns (r: Result<Band>)
      ensures r == EnsembleForecast(models, dataset.xTests, dataset.yTest, dataset.targetScaler, backtest)
    {
      r := ForecastEnsemble(models, dataset.xTests, dataset.yTest, dataset.targetScaler, backtest);
    }

    /** `forecast_for_hours`: every member predicting from the current
        target with its own current covariates, joined into one band. */
    method ForecastForHours(predict: (Model, Frame, Frame) -> Output) returns (r: Result<Band>)
      ensures r == EnsembleForecast(models, dataset.xsCurrent, dataset.yCurrent, dataset.targetScaler, predict)
    {
      r := ForecastEnsemble(models, dataset.xsCurrent, dataset.yCurrent, dataset.targetScaler, predict);
    }

    /** `_inverse_scale_all`: the same series in the same order, each
        inverse-transformed with the target scaler; the first series the
        scaler cannot take raises. */
    method InverseScaleAll(preds: seq<Frame>) returns (r: Result<seq<Frame>>)
      requires forall i :: 0 <= i < |preds| ==> preds[i].Valid()
      ensures r.Ok? <==> forall i :: 0 <= i < |preds| ==> InverseScaleWith(dataset.targetScaler, preds[i]).Ok?
      ensures r.Ok? ==> (|r.value| == |preds| &&
        forall i :: 0 <= i < |preds| ==> InverseScaleWith(dataset.targetScaler, preds[i]) == Ok(r.value[i]))
      ensures r.Err? ==> exists k :: (0 <= k < |preds| && InverseScaleWith(dataset.targetScaler, preds[k]) == Err(r.error)
        && forall i :: 0 <= i < k ==> InverseScaleWith(dataset.targetScaler, preds[i]).Ok?)
    {
      var sc := dataset.targetScaler;
      var out := [];
      for i := 0 to |preds|
        invariant |out| == i
        invariant forall k :: 0 <= k < i ==> InverseScaleWith(sc, preds[k]) == Ok(out[k])
      {
        var s := InverseScaleWith(sc, preds[i]);
        if s.Err? {
          return Err(s.error);
        }
        out := out + [s.value];
      }
      r := Ok(out);
    }

    /** `forecast_for`: the prediction window starting at `t` from the
        prediction set, one opaque model call on it, and the target
        scaler's inverse applied to the scaled level it returns. */
    function ForecastFor(ps: Prediction.PredictionSet, predict: Prediction.Tensor -> real, t: Hour): (r: Result<real>)
      requires ps.Valid()
      reads dataset, ps
      ensures ps.XInForWindow(t, Prediction.DefaultWindowHours).Err? ==>
        r == Err(ps.XInForWindow(t, Prediction.DefaultWindowHours).error)
      ensures r.Ok? <==> (ps.XInForWindow(t, Prediction.DefaultWindowHours).Ok?
        && dataset.targetScaler.Some? && |dataset.targetScaler.value| == 1)
      ensures r.Ok? ==>
        dataset.targetScaler.value[0].Scale(r.value) == predict(ps.XInForWindow(t, Prediction.DefaultWindowHours).value)
    {
      LevelAt(ps.x, ps.xShape, dataset.targetScaler, predict, t)
    }

    /** `forecast_for_range`: a forecast for every hour t with
        start <= t < end, in increasing order, each paired with its hour
        (the records the loop hands to the prediction set); the first
        failing forecast raises. */
    method ForecastForRange(ps: Prediction.PredictionSet, predict: Prediction.Tensor -> real, start: Hour, end: Hour)
      returns (r: Result<seq<(Hour, real)>>)
      requires ps.Valid()
      ensures r == RangeRecords(ps.x, ps.xShape, dataset.targetScaler, predict, start, end)
    {
      ghost var x, shape, sc := ps.x, ps.xShape, dataset.targetScaler;
      ghost var steps := StampAll(HourlyLevels(x, shape, sc, predict, start, end), start);
      var records := [];
      var cur := start;
      while cur < end
        invariant start <= cur && (end <= start ==> cur == start) && (start < end ==> cur <= end)
        invariant |records| == cur - start
        invariant Collect(steps[..cur - start]) == Ok(records)
        decreases end - cur
      {
        var level := ForecastFor(ps, predict, cur);
        assert level == LevelAt(x, shape, sc, predict, cur);
        assert steps[cur - start] == Stamped(cur, level);
        CollectExtend(steps, cur - start, records);
        if level.Err? {
          return Err(level.error);
        }
        records := records + [(cur, level.value)];
        cur := cur + 1;
      }
      assert steps[..|steps|] == steps;
      r := Ok(records);
    }
  }

  /** `Forecaster(catchment_data, ...)`: take the dataset built from the
      catchment, place the models under parent/name/save-dir, and build or
      load one member per covariate variant. Whether the checkpoint
      directory exists, and which checkpoints it holds, are parameters. */
  method NewForecaster(name: string, dataset: DatasetPipeline.Dataset, overwrite: bool, checkpointDirExists: bool,
                       checkpoints: set<string>, parentDir: string, saveDir: string)
    returns (r: Result<Forecaster>)
    requires dataset.Valid()
    ensures r.Ok? ==> (fresh(r.value) && r.value.name == name && r.value.dataset == dataset
      && r.value.modelSaveDir == ModelSaveDir(parentDir, name, saveDir)
      && |r.value.models| == dataset.NumXSets())
    ensures overwrite || !checkpointDirExists ==>
      r.Ok? && r.value.models == Members(dataset.NumXSets(), ModelSaveDir(parentDir, name, saveDir), NewlyBuilt)
    ensures !overwrite && checkpointDirExists ==>
      && (r.Ok? <==> forall i :: 0 <= i < dataset.NumXSets() ==> IndexName(i) in checkpoints)
      && (r.Ok? ==> r.value.models == Members(dataset.NumXSets(), ModelSaveDir(parentDir, name, saveDir), FromCheckpoint))
  {
    var dir := ModelSaveDir(parentDir, name, saveDir);
    var n := dataset.NumXSets();
    var chosen := ChooseModels(overwrite, checkpointDirExists, n, dir, checkpoints);
    if chosen.Err? {
      return Err(chosen.error);
    }
    if overwrite || !checkpointDirExists {
      assert chosen.value == Members(n, dir, NewlyBuilt);
    } else {
      assert chosen.value == Members(n, dir, FromCheckpoint);
    }
    var f := new Forecaster.Init(name, dataset, dir, chosen.value);
    r := Ok(f);
  }
}

=== FILE: frames.dfy ===
/** Time-indexed tables: the pandas DataFrame and darts TimeSeries the
    pipeline passes around, stored column by column. */
module Frames {
  import opened Common

  /** A strictly increasing timestamp index: no timestamp appears twice. */
  ghost predicate Increasing(index: seq<Hour>)
  {
    forall i, j :: 0 <= i < j < |index| ==> index[i] < index[j]
  }

  /** An index sampled every hour without gaps. */
  ghost predicate Hourly(index: seq<Hour>)
  {
    forall i :: 0 <= i < |index| ==> index[i] == index[0] + i
  }

  /** A table with one timestamp per row and named real-valued columns;
      `cols[j][i]` is the value of column `names[j]` at `index[i]`. */
  datatype Frame = Frame(index: seq<Hour>, names: seq<string>, cols: seq<seq<real>>)
  {
    ghost predicate Valid()
    {
      && |names| == |cols|
      && (forall j :: 0 <= j < |cols| ==> |cols[j]| == |index|)
      && Increasing(index)
    }

    function Len(): nat { |index| }

    function Width(): nat { |cols| }

    /** Rows a (inclusive) to b (exclusive), every column kept. */
    function Slice(a: nat, b: nat): (r: Frame)
      requires Valid() && a <= b <= Len()
      ensures r.Valid() && r.Len() == b - a && r.Width() == Width() && r.names == names
      ensures r.index == index[a..b]
      ensures forall j :: 0 <= j < |cols| ==> r.cols[j] == cols[j][a..b]
    {
      Frame(index[a..b], names, seq(|cols|, j requires 0 <= j < |cols| => cols[j][a..b]))
    }

    /** The rows of `this` followed by the rows of `g` (same columns). */
    function Concat(g: Frame): (r: Frame)
      requires |g.cols| == |cols|
      ensures r.index == index + g.index && r.names == names
      ensures |r.cols| == |cols| && forall j :: 0 <= j < |cols| ==> r.cols[j] == cols[j] + g.cols[j]
    {
      Frame(index + g.index, names, seq(|cols|, j requires 0 <= j < |cols| => cols[j] + g.cols[j]))
    }
  }

  function EmptyFrame(): (r: Frame)
    ensures r.Valid() && r.Len() == 0 && r.Width() == 0
  {
    Frame([], [], [])
  }

  /** Splitting a frame at row k and joining the two pieces back in order
      gives the frame itself. */
  lemma SplitRejoin(f: Frame, k: nat)
    requires f.Valid() && k <= f.Len()
    ensures f.Slice(0, k).Concat(f.Slice(k, f.Len())) == f
  {
    var r := f.Slice(0, k).Concat(f.Slice(k, f.Len()));
    assert r.index == f.index;
    forall j | 0 <= j < |f.cols|
      ensures r.cols[j] == f.cols[j]
    {
      var c := f.cols[j];
      assert c == c[..k] + c[k..];
    }
  }

  /** First position of `name` among the column names. */
  function IndexOfName(names: seq<string>, name: string): (r: Option<nat>)
    ensures r.Some? ==> r.value < |names| && names[r.value] == name
    ensures r.Some? ==> forall k :: 0 <= k < r.value ==> names[k] != name
    ensures r.None? <==> name !in names
  {
    if |names| == 0 then None
    else if names[0] == name then Some(0)
    else match IndexOfName(names[1..], name)
      case None => None
      case Some(k) => Some(k + 1)
  }

  /** The values of the column called `name` (pandas `df[name]`), if any. */
  function Col(f: Frame, name: string): Option<seq<real>>
    requires |f.names| == |f.cols|
  {
    match IndexOfName(f.names, name)
    case None => None
    case Some(j) => Some(f.cols[j])
  }

  /** pandas `df[name] = values`: overwrite the column if it exists,
      otherwise append it as the last column. */
  function SetColumn(f: Frame, name: string, values: seq<real>): (r: Frame)
    requires f.Valid() && |values| == f.Len()
    ensures r.Valid() && r.index == f.index
    ensures name in f.names ==> r.names == f.names
    ensures name !in f.names ==> r.names == f.names + [name]
  {
    match IndexOfName(f.names, name)
    case Some(j) => Frame(f.index, f.names, f.cols[j := values])
    case None => Frame(f.index, f.names + [name], f.cols + [values])
  }

  /** After `df[name] = values`, reading `name` gives `values` and reading
      any other column gives what it gave before. */
  lemma ColAfterSet(f: Frame, name: string, values: seq<real>, other: string)
    requires f.Valid() && |values| == f.Len()
    ensures Col(SetColumn(f, name, values), other) == if other == name then Some(values) else Col(f, other)
  {
    if name !in f.names && other != name {
      IndexOfNameAppend(f.names, name, other);
    }
  }

  lemma {:induction false} IndexOfNameAppend(names: seq<string>, extra: string, name: string)
    requires name != extra
    ensures IndexOfName(names + [extra], name) == IndexOfName(names, name)
  {
    if |names| > 0 {
      assert (names + [extra])[1..] == names[1..] + [extra];
      IndexOfNameAppend(names[1..], extra, name);
    }
  }

  /** Position of timestamp `t` in the index (pandas `t in df.index`). */
  function PositionOf(index: seq<Hour>, t: Hour): (r: Option<nat>)
    ensures r.Some? ==> r.value < |index| && index[r.value] == t
    ensures r.None? <==> t !in index
  {
    if |index| == 0 then None
    else if index[0] == t then Some(0)
    else match PositionOf(index[1..], t)
      case None => None
      case Some(k) => Some(k + 1)
  }

  /** In a strictly increasing index a timestamp has one position. */
  lemma PositionUnique(index: seq<Hour>, t: Hour, i: nat)
    requires Increasing(index) && i < |index| && index[i] == t
    ensures PositionOf(index, t) == Some(i)
  {
    var p := PositionOf(index, t);
    assert p.Some? && index[p.value] == index[i];
  }
}

=== FILE: prediction_set.dfy ===
/** The live inference input (`forecasting/prediction_set.py`): the freshly
    fetched frame scaled with the training scalers, and the window of it a
    model reads, reshaped to the model's input shape. */
module Prediction {
  import opened Common
  import opened Frames
  import opened Scaling
  import DatasetPipeline

  /** `window_size_hours` when the caller gives none. */
  const DefaultWindowHours: int := 5

  /** A numpy array: its shape and its elements in row-major order. */
  datatype Tensor = Tensor(shape: seq<nat>, data: seq<real>)

  /** Number of elements of an array of the given shape. */
  function Product(shape: seq<nat>): nat
  {
    if |shape| == 0 then 1 else shape[0] * Product(shape[1..])
  }

  /** `df.values`: the frame as a matrix, one row per timestamp, one
      entry per column. */
  function Values(f: Frame): (m: seq<seq<real>>)
    requires f.Valid()
    ensures |m| == f.Len()
    ensures forall r :: 0 <= r < |m| ==> |m[r]| == f.Width()
    ensures forall r, c :: 0 <= r < |m| && 0 <= c < f.Width() ==> m[r][c] == f.cols[c][r]
  {
    seq(f.Len(), r requires 0 <= r < f.Len() => seq(f.Width(), c requires 0 <= c < f.Width() => f.cols[c][r]))
  }

  /** The rows of a matrix laid end to end (numpy's row-major order). */
  function Flatten(m: seq<seq<real>>): seq<real>
  {
    if |m| == 0 then [] else Flatten(m[..|m| - 1]) + m[|m| - 1]
  }

  ghost predicate RowsOfWidth(m: seq<seq<real>>, w: nat)
  {
    forall r :: 0 <= r < |m| ==> |m[r]| == w
  }

  lemma {:induction false} FlattenLength(m: seq<seq<real>>, w: nat)
    requires RowsOfWidth(m, w)
    ensures |Flatten(m)| == |m| * w
  {
    if |m| > 0 {
      FlattenLength(m[..|m| - 1], w);
      assert |m| * w == (|m| - 1) * w + w;
    }
  }

  /** Element (r, c) of the flattened matrix sits at offset r * w + c. */
  lemma {:induction false} FlattenElement(m: seq<seq<real>>, w: nat, r: nat, c: nat)
    requires RowsOfWidth(m, w) && r < |m| && c < w
    ensures r * w + c < |Flatten(m)| && Flatten(m)[r * w + c] == m[r][c]
  {
    var front := m[..|m| - 1];
    FlattenLength(front, w);
    FlattenLength(m, w);
    assert (|m| - 1) * w + w == |m| * w;
    MulMonotone(r + 1, |m|, w);
    assert (r + 1) * w == r * w + w;
    if r == |m| - 1 {
      assert Flatten(m)[r * w + c] == m[|m| - 1][c];
    } else {
      FlattenElement(front, w, r, c);
      assert Flatten(m)[r * w + c] == Flatten(front)[r * w + c];
    }
  }

  lemma MulMonotone(a: nat, b: nat, w: nat)
    requires a <= b
    ensures a * w <= b * w
  {
    assert b * w == a * w + (b - a) * w;
  }

  /** Offset of element (r, c) in row-major data with `width` columns. */
  function Offset(width: nat, r: nat, c: nat): nat
  {
    r * width + c
  }

  /** Element (r, c) of row-major data with `width` columns. */
  function Cell(data: seq<real>, width: nat, r: nat, c: nat): real
    requires Offset(width, r, c) < |data|
  {
    data[Offset(width, r, c)]
  }

  /** Every element of the flattened values, by row and column. */
  lemma FlattenedCells(f: Frame)
    requires f.Valid()
    ensures |Flatten(Values(f))| == f.Len() * f.Width()
    ensures forall r: nat, c: nat :: r < f.Len() && c < f.Width() ==>
      Offset(f.Width(), r, c) < |Flatten(Values(f))| && Cell(Flatten(Values(f)), f.Width(), r, c) == f.cols[c][r]
  {
    var m := Values(f);
    assert RowsOfWidth(m, f.Width());
    FlattenLength(m, f.Width());
    MatrixCells(m, f.Width());
  }

  lemma MatrixCells(m: seq<seq<real>>, w: nat)
    requires RowsOfWidth(m, w)
    ensures forall r: nat, c: nat :: r < |m| && c < w ==>
      Offset(w, r, c) < |Flatten(m)| && Flatten(m)[Offset(w, r, c)] == m[r][c]
  {
    forall r: nat, c: nat | r < |m| && c < w
      ensures Offset(w, r, c) < |Flatten(m)| && Flatten(m)[Offset(w, r, c)] == m[r][c]
    {
      FlattenElement(m, w, r, c);
    }
  }

  /** `df.loc[start:end, :]` with the guards of `x_in_for_window`: the end is
      `start + (w - 1)` hours; either timestamp missing from the index gives
      `None`; otherwise the rows from start to end, both included (none when
      the end precedes the start). */
  function WindowRows(x: Frame, start: Hour, w: int): (r: Result<Frame>)
    requires x.Valid()
    ensures start !in x.index ==> r == Err(WindowStartMissing)
    ensures start in x.index && start + (w - 1) !in x.index ==> r == Err(WindowEndMissing)
    ensures r.Ok? <==> start in x.index && start + (w - 1) in x.index
    ensures r.Ok? ==> r.value.Valid() && r.value.Width() == x.Width() && r.value.names == x.names
  {
    var end := start + (w - 1);
    match PositionOf(x.index, start)
    case None => Err(WindowStartMissing)
    case Some(a) =>
      match PositionOf(x.index, end)
      case None => Err(WindowEndMissing)
      case Some(b) => if a <= b then Ok(x.Slice(a, b + 1)) else Ok(x.Slice(a, a))
  }

  /** `x_in.values.reshape(X_shape)`: refused unless the element count of
      the shape is the number of values. */
  function Reshape(f: Frame, shape: seq<nat>): (r: Result<Tensor>)
    requires f.Valid()
    ensures r.Ok? <==> Product(shape) == f.Len() * f.Width()
    ensures r.Err? ==> r.error == ShapeMismatch
    ensures r.Ok? ==> r.value.shape == shape && |r.value.data| == Product(shape)
  {
    assert RowsOfWidth(Values(f), f.Width());
    FlattenLength(Values(f), f.Width());
    var data := Flatten(Values(f));
    if Product(shape) != |data| then Err(ShapeMismatch) else Ok(Tensor(shape, data))
  }

  /** `x_in_for_window(start, window_size_hours)` on the live covariates. */
  function Window(x: Frame, shape: seq<nat>, start: Hour, w: int): (r: Result<Tensor>)
    requires x.Valid()
    ensures WindowRows(x, start, w).Err? ==> r == Err(WindowRows(x, start, w).error)
    ensures r.Ok? ==> r.value.shape == shape && |r.value.data| == Product(shape)
  {
    match WindowRows(x, start, w)
    case Err(e) => Err(e)
    case Ok(rows) => Reshape(rows, shape)
  }

  /** When the call succeeds, and exactly when: both ends of the window are
      timestamps of the frame and the shape holds as many elements as the
      window has values. */
  lemma WindowSucceeds(x: Frame, shape: seq<nat>, start: Hour, w: int)
    requires x.Valid()
    ensures Window(x, shape, start, w).Ok? <==>
      && start in x.index && start + (w - 1) in x.index
      && Product(shape) == WindowRows(x, start, w).value.Len() * x.Width()
  {
    if WindowRows(x, start, w).Ok? {
      var rows := WindowRows(x, start, w).value;
      FlattenLength(Values(rows), rows.Width());
    }
  }

  /** On an hourly index without gaps and with a width w >= 1, a successful
      window holds the w rows stamped start, start + 1, ..., start + w - 1. */
  lemma WindowTimestamps(x: Frame, start: Hour, w: int)
    requires x.Valid() && Hourly(x.index) && w >= 1 && WindowRows(x, start, w).Ok?
    ensures var rows := WindowRows(x, start, w).value;
      && rows.Len() == w
      && (forall r :: 0 <= r < w ==> rows.index[r] == start + r)
  {
    var a := start - x.index[0];
    HourlyWindowRows(x, start, w);
    var rows := x.Slice(a, a + w);
    forall r | 0 <= r < w ensures rows.index[r] == start + r {
      assert rows.index[r] == x.index[a + r];
    }
  }

  /** On an hourly index without gaps and with a width w >= 1, the returned
      array has the requested shape and holds the w rows of `df.values`
      from hour `start` on, flattened row by row. */
  lemma WindowContents(x: Frame, shape: seq<nat>, start: Hour, w: int)
    requires x.Valid() && Hourly(x.index) && w >= 1 && Window(x, shape, start, w).Ok?
    ensures 0 <= start - x.index[0] && start - x.index[0] + w <= x.Len()
    ensures var t := Window(x, shape, start, w).value;
      && t.shape == shape
      && t.data == Flatten(Values(x)[start - x.index[0]..start - x.index[0] + w])
  {
    var a := start - x.index[0];
    HourlyWindowRows(x, start, w);
    ValuesOfSlice(x, a, a + w);
  }

  /** Slicing rows of a frame slices the rows of its values. */
  lemma ValuesOfSlice(x: Frame, a: nat, b: nat)
    requires x.Valid() && a <= b <= x.Len()
    ensures Values(x.Slice(a, b)) == Values(x)[a..b]
  {
    var lhs, rhs := Values(x.Slice(a, b)), Values(x)[a..b];
    forall r | 0 <= r < b - a ensures lhs[r] == rhs[r] {
      assert |lhs[r]| == |rhs[r]| == x.Width();
      forall c | 0 <= c < x.Width() ensures lhs[r][c] == rhs[r][c] {
        assert lhs[r][c] == x.Slice(a, b).cols[c][r] == x.cols[c][a + r];
      }
    }
  }

  /** On an hourly index the window's rows start at the offset of `start`
      from the first timestamp. */
  lemma HourlyWindowRows(x: Frame, start: Hour, w: int)
    requires x.Valid() && Hourly(x.index) && w >= 1 && WindowRows(x, start, w).Ok?
    ensures 0 <= start - x.index[0] && start - x.index[0] + w <= x.Len()
    ensures WindowRows(x, start, w) == Ok(x.Slice(start - x.index[0], start - x.index[0] + w))
  {
    var a := start - x.index[0];
    var pa := PositionOf(x.index, start).value;
    var pb := PositionOf(x.index, start + (w - 1)).value;
    assert pa == a by {
      assert x.index[pa] == x.index[0] + pa;
    }
    assert pb == a + w - 1 by {
      assert x.index[pb] == x.index[0] + pb;
    }
  }

  /** A concrete window: five hourly rows of one column, read from the first
      hour with the default width into a (1, 5, 1) array. */
  lemma FiveHourWindow()
    ensures Window(Frame([0, 1, 2, 3, 4], ["temp"], [[1.0, 2.0, 3.0, 4.0, 5.0]]), [1, 5, 1], 0, DefaultWindowHours)
      == Ok(Tensor([1, 5, 1], [1.0, 2.0, 3.0, 4.0, 5.0]))
  {
    var x := Frame([0, 1, 2, 3, 4], ["temp"], [[1.0, 2.0, 3.0, 4.0, 5.0]]);
    FiveRows(x);
    FiveValues(x);
    ProductOfShape();
    assert Window(x, [1, 5, 1], 0, DefaultWindowHours) == Reshape(x, [1, 5, 1]);
  }

  lemma ProductOfShape()
    ensures Product([1, 5, 1]) == 5
  {
    var s: seq<nat> := [1, 5, 1];
    assert s[1..] == [5, 1] && s[1..][1..] == [1] && s[1..][1..][1..] == [];
  }

  lemma FiveRows(x: Frame)
    requires x == Frame([0, 1, 2, 3, 4], ["temp"], [[1.0, 2.0, 3.0, 4.0, 5.0]])
    ensures x.Valid() && WindowRows(x, 0, DefaultWindowHours) == Ok(x)
  {
    FiveHourly(x);
    HourlyWindowRows(x, 0, 5);
    var rows := x.Slice(0, 5);
    assert rows.cols[0] == x.cols[0][0..5] == x.cols[0];
    assert rows.cols == x.cols;
    assert rows.index == x.index[0..5] == x.index;
    assert rows == x;
  }

  lemma FiveHourly(x: Frame)
    requires x == Frame([0, 1, 2, 3, 4], ["temp"], [[1.0, 2.0, 3.0, 4.0, 5.0]])
    ensures x.Valid() && Hourly(x.index) && 0 in x.index && 4 in x.index
  {
    assert x.index[0] == 0 && x.index[4] == 4;
  }

  lemma FiveValues(x: Frame)
    requires x == Frame([0, 1, 2, 3, 4], ["temp"], [[1.0, 2.0, 3.0, 4.0, 5.0]])
    ensures x.Valid() && Flatten(Values(x)) == [1.0, 2.0, 3.0, 4.0, 5.0]
  {
    var m := Values(x);
    assert m[0] == [1.0] && m[1] == [2.0] && m[2] == [3.0] && m[3] == [4.0] && m[4] == [5.0];
    assert m[..1][..0] == [] && m[..2][..1] == m[..1] && m[..3][..2] == m[..2];
    assert m[..4][..3] == m[..3] && m[..4] == m[..|m| - 1];
    assert Flatten(m[..1]) == [1.0];
    assert Flatten(m[..2]) == [1.0, 2.0];
    assert Flatten(m[..3]) == [1.0, 2.0, 3.0];
    assert Flatten(m[..4]) == [1.0, 2.0, 3.0, 4.0];
  }

  /** `_pre_process` of the prediction set: the fetched covariates and target
      scaled with the dataset's scalers, with no fitting. */
  function PreProcessLive(fetched: DatasetPipeline.RawFrame, scaler: Option<MinMax>, targetScaler: Option<MinMax>)
    : (r: Result<(Frame, Frame)>)
    requires fetched.Valid()
    ensures r.Ok? <==> DatasetPipeline.ScaleWith(scaler, fetched.x).Ok? && DatasetPipeline.ScaleWith(targetScaler, fetched.y).Ok?
    ensures r.Ok? ==> r.value.0.Valid() && r.value.1.Valid()
    ensures r.Ok? ==> r.value.0.index == fetched.x.index && r.value.1.index == fetched.y.index
  {
    match DatasetPipeline.ScaleWith(scaler, fetched.x)
    case Err(e) => Err(e)
    case Ok(x) =>
      match DatasetPipeline.ScaleWith(targetScaler, fetched.y)
      case Err(e) => Err(e)
      case Ok(y) => Ok((x, y))
  }

  /** The live data is scaled exactly as the training data was: with the
      given scalers unchanged, so the scalers' inverse recovers the fetched
      values. */
  lemma LiveScalingInverts(fetched: DatasetPipeline.RawFrame, scaler: Option<MinMax>, targetScaler: Option<MinMax>)
    requires fetched.Valid() && PreProcessLive(fetched, scaler, targetScaler).Ok?
    ensures scaler.Some? && targetScaler.Some?
    ensures var (x, y) := PreProcessLive(fetched, scaler, targetScaler).value;
      && x == Transform(scaler.value, fetched.x) && y == Transform(targetScaler.value, fetched.y)
      && InverseTransform(scaler.value, x) == fetched.x
      && InverseTransform(targetScaler.value, y) == fetched.y
  {
    TransformRoundTrip(scaler.value, fetched.x);
    TransformRoundTrip(targetScaler.value, fetched.y);
  }

  /** What `self.df` holds in the source: nothing before `update`, and the
      `(X, y)` tuple after it. */
  datatype StoredDf = Unassigned | Pair(x: Frame, y: Frame)

  /** The prediction set: the model input shape and the scalers, fixed at
      construction, and the scaled live covariates and target, replaced on
      every update. `df` is the attribute the source's window method reads. */
  class PredictionSet {
    const xShape: seq<nat>
    const scaler: Option<MinMax>
    const targetScaler: Option<MinMax>
    var x: Frame
    var y: Frame
    var df: StoredDf

    ghost predicate Valid()
      reads this
    {
      x.Valid() && y.Valid()
    }

    constructor Init(xShape: seq<nat>, scaler: Option<MinMax>, targetScaler: Option<MinMax>, x: Frame, y: Frame)
      requires x.Valid() && y.Valid()
      ensures Valid()
      ensures this.xShape == xShape && this.scaler == scaler && this.targetScaler == targetScaler
      ensures this.x == x && this.y == y && df == Unassigned
    {
      this.xShape, this.scaler, this.targetScaler := xShape, scaler, targetScaler;
      this.x, this.y := x, y;
      df := Unassigned;
    }

    /** `x_in_for_window` over the live covariates set by the constructor
        and by `update`. */
    function XInForWindow(start: Hour, w: int): (r: Result<Tensor>)
      requires Valid()
      reads this
      ensures r == Window(x, xShape, start, w)
      ensures r.Ok? ==> start in x.index && start + (w - 1) in x.index
    {
      Window(x, xShape, start, w)
    }

    /** `x_in_for_window` as written: it reads `self.df`, which is unset
        until `update` runs (an attribute error) and then holds a tuple,
        which has no timestamp index (a type error). */
    function XInForWindowAsWritten(start: Hour, w: int): (r: Result<Tensor>)
      reads this
      ensures df.Unassigned? ==> r == Err(AttributeMissing)
      ensures df.Pair? ==> r == Err(NotAFrame)
    {
      match df
      case Unassigned => Err(AttributeMissing)
      case Pair(_, _) => Err(NotAFrame)
    }

    /** `update`: fetch again (the fetched frame is the parameter) and
        rebuild the live covariates and target with the fixed scalers. A
        failing preprocessing raises before anything is assigned. */
    method Update(fetched: DatasetPipeline.RawFrame) returns (err: Option<Error>)
      requires Valid() && fetched.Valid()
      modifies this`x, this`y
      ensures Valid()
      ensures match PreProcessLive(fetched, scaler, targetScaler)
        case Ok(p) => err.None? && x == p.0 && y == p.1
        case Err(e) => err == Some(e) && x == old(x) && y == old(y)
    {
      var p := PreProcessLive(fetched, scaler, targetScaler);
      if p.Err? {
        return Some(p.error);
      }
      x, y := p.value.0, p.value.1;
      err := None;
    }

    /** `update` as written: the `(X, y)` tuple goes to `self.df`, and the
        covariates the constructor set stay as they were. */
    method UpdateAsWritten(fetched: DatasetPipeline.RawFrame) returns (err: Option<Error>)
      requires fetched.Valid()
      modifies this`df
      ensures match PreProcessLive(fetched, scaler, targetScaler)
        case Ok(p) => err.None? && df == Pair(p.0, p.1)
        case Err(e) => err == Some(e) && df == old(df)
    {
      var p := PreProcessLive(fetched, scaler, targetScaler);
      if p.Err? {
        return Some(p.error);
      }
      df := Pair(p.value.0, p.value.1);
      err := None;
    }
  }

  /** `PredictionSet(data_fetcher, dataset)`: take the dataset's scalers and
      the model input shape, and preprocess the fetched frame. */
  method NewPredictionSet(fetched: DatasetPipeline.RawFrame, d: DatasetPipeline.Dataset, xShape: seq<nat>)
    returns (r: Result<PredictionSet>)
    requires fetched.Valid()
    ensures PreProcessLive(fetched, d.scaler, d.targetScaler).Err? ==>
      r == Err(PreProcessLive(fetched, d.scaler, d.targetScaler).error)
    ensures PreProcessLive(fetched, d.scaler, d.targetScaler).Ok? ==> r.Ok? && fresh(r.value)
    ensures r.Ok? ==> var ps := r.value; var p := PreProcessLive(fetched, d.scaler, d.targetScaler).value;
      && ps.Valid() && ps.xShape == xShape && ps.scaler == d.scaler && ps.targetScaler == d.targetScaler
      && ps.x == p.0 && ps.y == p.1 && ps.df == Unassigned
  {
    var p := PreProcessLive(fetched, d.scaler, d.targetScaler);
    if p.Err? {
      return Err(p.error);
    }
    var ps := new PredictionSet.Init(xShape, d.scaler, d.targetScaler, p.value.0, p.value.1);
    r := Ok(ps);
  }
}

=== FILE: scaling.dfy ===
/** Min-max normalisation (darts `Scaler` around scikit-learn's
    `MinMaxScaler`): fitted on one frame, it maps each column affinely so
    that the fitting data spans [0, 1], and maps predictions back. */
module Scaling {
  import opened Common
  import opened Frames

  /** The fitted parameters of one column: its minimum and maximum on the
      fitting data. */
  datatype ColumnScaler = ColumnScaler(lo: real, hi: real)
  {
    /** The divisor; a constant column gets 1, as scikit-learn does, so
        that scaling never divides by zero. */
    function Range(): (r: real)
      ensures r != 0.0
      ensures lo <= hi ==> r > 0.0
    {
      if hi - lo == 0.0 then 1.0 else hi - lo
    }

    function Scale(v: real): real { (v - lo) / Range() }

    function Unscale(v: real): real { v * Range() + lo }
  }

  /** `inverse_transform` undoes `transform` and the other way round, for
      every value, not only for values of the fitting data. */
  lemma ScaleRoundTrip(c: ColumnScaler, v: real)
    ensures c.Unscale(c.Scale(v)) == v
    ensures c.Scale(c.Unscale(v)) == v
  {
    var r := c.Range();
    assert (v - c.lo) / r * r == v - c.lo;
    assert (v * r + c.lo - c.lo) / r == v;
  }

  /** A value between the fitted minimum and maximum scales into [0, 1]. */
  lemma ScaleWithinFittedRange(c: ColumnScaler, v: real)
    requires c.lo <= v <= c.hi
    ensures 0.0 <= c.Scale(v) <= 1.0
  {
    if c.hi - c.lo != 0.0 {
      DivideBounds(v - c.lo, c.hi - c.lo, 0.0, 1.0);
    }
  }

  function ScaleSeries(c: ColumnScaler, s: seq<real>): (r: seq<real>)
    ensures |r| == |s| && forall i :: 0 <= i < |s| ==> r[i] == c.Scale(s[i])
  {
    seq(|s|, i requires 0 <= i < |s| => c.Scale(s[i]))
  }

  function UnscaleSeries(c: ColumnScaler, s: seq<real>): (r: seq<real>)
    ensures |r| == |s| && forall i :: 0 <= i < |s| ==> r[i] == c.Unscale(s[i])
  {
    seq(|s|, i requires 0 <= i < |s| => c.Unscale(s[i]))
  }

  lemma SeriesRoundTrip(c: ColumnScaler, s: seq<real>)
    ensures UnscaleSeries(c, ScaleSeries(c, s)) == s
    ensures ScaleSeries(c, UnscaleSeries(c, s)) == s
  {
    forall i | 0 <= i < |s| ensures UnscaleSeries(c, ScaleSeries(c, s))[i] == s[i] {
      ScaleRoundTrip(c, s[i]);
    }
    forall i | 0 <= i < |s| ensures ScaleSeries(c, UnscaleSeries(c, s))[i] == s[i] {
      ScaleRoundTrip(c, s[i]);
    }
  }

  /** A fitted scaler for a whole frame: one column scaler per column. */
  type MinMax = seq<ColumnScaler>

  /** `fit`: record each column's minimum and maximum. The darts series it is
      called on always has at least one row. */
  function Fit(f: Frame): (sc: MinMax)
    requires f.Valid() && f.Len() > 0
    ensures |sc| == f.Width()
    ensures forall j :: 0 <= j < |sc| ==> sc[j].lo in f.cols[j] && sc[j].hi in f.cols[j]
  {
    seq(|f.cols|, j requires 0 <= j < |f.cols| => ColumnScaler(MinOf(f.cols[j]), MaxOf(f.cols[j])))
  }

  /** Every value of the fitting data lies between its column's fitted
      minimum and maximum. */
  lemma FitBounds(f: Frame)
    requires f.Valid() && f.Len() > 0
    ensures forall j :: 0 <= j < f.Width() ==> Fit(f)[j].lo <= Fit(f)[j].hi
    ensures forall j, i :: 0 <= j < f.Width() && 0 <= i < f.Len() ==> Fit(f)[j].lo <= f.cols[j][i] <= Fit(f)[j].hi
  {
  }

  /** `transform`: scale every column with its own column scaler. */
  function Transform(sc: MinMax, f: Frame): (r: Frame)
    requires f.Valid() && |sc| == f.Width()
    ensures r.Valid() && r.index == f.index && r.names == f.names && r.Width() == f.Width()
    ensures forall j :: 0 <= j < |sc| ==> r.cols[j] == ScaleSeries(sc[j], f.cols[j])
  {
    Frame(f.index, f.names, seq(|f.cols|, j requires 0 <= j < |f.cols| => ScaleSeries(sc[j], f.cols[j])))
  }

  /** `inverse_transform`. */
  function InverseTransform(sc: MinMax, f: Frame): (r: Frame)
    requires f.Valid() && |sc| == f.Width()
    ensures r.Valid() && r.index == f.index && r.names == f.names && r.Width() == f.Width()
    ensures forall j :: 0 <= j < |sc| ==> r.cols[j] == UnscaleSeries(sc[j], f.cols[j])
  {
    Frame(f.index, f.names, seq(|f.cols|, j requires 0 <= j < |f.cols| => UnscaleSeries(sc[j], f.cols[j])))
  }

  /** Scaling round trip: inverse-transforming a transformed frame gives the
      frame back, whatever scaler is used. */
  lemma TransformRoundTrip(sc: MinMax, f: Frame)
    requires f.Valid() && |sc| == f.Width()
    ensures InverseTransform(sc, Transform(sc, f)) == f
  {
    var g := InverseTransform(sc, Transform(sc, f));
    forall j | 0 <= j < |sc| ensures g.cols[j] == f.cols[j] {
      SeriesRoundTrip(sc[j], f.cols[j]);
    }
  }

  /** The data a scaler was fitted on is mapped into [0, 1] in every column. */
  lemma FittedDataInUnitRange(f: Frame)
    requires f.Valid() && f.Len() > 0
    ensures forall j, i :: 0 <= j < f.Width() && 0 <= i < f.Len() ==>
      0.0 <= Transform(Fit(f), f).cols[j][i] <= 1.0
  {
    var sc := Fit(f);
    FitBounds(f);
    forall j, i | 0 <= j < f.Width() && 0 <= i < f.Len()
      ensures 0.0 <= Transform(sc, f).cols[j][i] <= 1.0
    {
      ScaleWithinFittedRange(sc[j], f.cols[j][i]);
    }
  }
}
